=== FILE: README.md ===
# pro-industry scraper — a Dafny model of its parsing core

`ProIndustryScraper` crawls a job board page by page. For each listing page
it fetches `base_url?<pagination>=<n>` and reads the result blocks. For each
anchor whose `href` contains `vacature/`, it fetches the detail page and reads
the job-details list into a `PositionDetails` record. It then builds a
`Vacancy` with a capitalised title, the two descriptions and the resolved URL.
It stops after the first page that yields no vacancy, or at the configured
page limit. `flatten_dict` turns a nested mapping into a flat one for the CSV
export.

The model has one module per part of the program:

- `Outcomes`: Python's `None` and the exceptions the code raises itself
  (`IndexError`, `AssertionError`, `TypeError`). A raised exception
  propagates through `:-`.
- `Text`: the `str` operations the code uses: `strip()` with Python's
  whitespace set, `capitalize()`, `replace(c, "")`, `in`, and the decimal
  rendering of a page number.
- `Urls`: `urljoin` as the reference resolution of section 5.2 of RFC 3986.
  It includes Python's shortcuts for an empty base or an empty reference.
- `Details` and `Vacancies`: the two pydantic records and their `pre`
  validators.
- `Scraper`: `get_job_details`, `parse_position`, `parse_page`, the listing
  URL and `parse_site`.
  - A detail page is its job-details `<ul>`s.
  - A listing page is its result blocks of anchors.
  - The browser and the HTTP session are a pair of functions from URL to page.
- `Pagination`: the `while` loop of `parse_site`. It runs over a function from
  page number to that page's outcome.
- `FlattenDict`: `flatten_dict`. A `dict` is an association list with
  distinct keys, each at the position where it was first inserted.

Behaviour of the code that the model keeps:

- A detail list with fewer than eight items is not skipped.
  - `get_job_details` raises `AssertionError`, and `parse_position` calls it
    outside its `try`.
  - The exception therefore leaves `parse_page` and `parse_site`, and ends the
    whole run (`Scraper.ShortDetailListAborts`), on whichever page the
    crawl reaches.
- Only a detail page with no job-details list at all is skipped.
- The page limit is checked after `page_num` has moved to the next page.
- A truthy limit `L` therefore stops the crawl after page `max(2, L - 1)`.
  - When page 1 has results, page 2 is fetched even for `L = 1`.
  - For `L >= 3`, page `L` itself is never fetched
    (`Pagination.CrawlReachesLimit`).
- `date_parsed` defaults to one `datetime.now()` value, taken when the class
  is defined. Every vacancy of a run carries that same timestamp
  (`Scraper.ParseSite`).

## Model

| member | source | states |
|---|---|---|
| Text.Strip | scraper/pro_industry_scraper.py:78 | the result has no whitespace at either end, and it is the input with a run of whitespace removed in front and behind |
| Text.StripIdempotent | scraper/pro_industry_scraper.py:78 | stripping an already stripped text changes nothing |
| Text.Capitalize | data_types/position_details.py:17-19 | the result has an upper-case first letter and lower-case other letters, and spells the input up to letter case |
| Text.CapitalizeCharacterised | data_types/position_details.py:17-19 | a string is the capitalised form of `s` if and only if it is capitalised and equal to `s` up to letter case |
| Text.CapitalizeIdempotent | data_types/vacancy.py:21-23 | capitalising twice gives the same as capitalising once |
| Text.RemoveChar | data_types/position_details.py:23 | the removed character no longer occurs, the text does not grow, and no new character appears |
| Text.RemoveCharCounts | data_types/position_details.py:23 | the multiset of characters is the input's with the removed character's count set to zero |
| Text.Contains | scraper/pro_industry_scraper.py:117 | `sub in s` holds if and only if `sub` occurs in `s` at some index |
| Text.NatToString | scraper/pro_industry_scraper.py:55 | `f"{page}"` writes a non-empty string of decimal digits with no leading zero except for `0` itself |
| Text.NatToStringRoundTrip | scraper/pro_industry_scraper.py:55 | reading the decimal digits of a page number back gives the number |
| Text.NatToStringInjective | scraper/pro_industry_scraper.py:55 | distinct page numbers are written as distinct digit strings |
| Urls.Join | scraper/pro_industry_scraper.py:56 | `urljoin` returns the empty string exactly when both the base and the link are empty; its results for absolute links, repeated joins and query-only links are stated by Urls.JoinAbsolute, Urls.JoinIdempotent and Urls.JoinQuery |
| Urls.JoinAbsolute | data_types/vacancy.py:25-27 | joining a URL with its own scheme and authority to any base returns that URL unchanged; this matches Python for a lower-case scheme, a non-empty authority with no `[`, `]` or non-ASCII character, no whitespace or control characters, no `;` in the last path segment, and no empty `?` or `#` |
| Urls.JoinIdempotent | data_types/vacancy.py:25-27 | joining again to the same absolute base leaves an already joined URL unchanged |
| Urls.JoinQuery | scraper/pro_industry_scraper.py:55-56 | a query-only reference keeps the base's scheme, authority and path, replaces its query and drops its fragment |
| Details.ValidateSalaryRange | data_types/position_details.py:21-23 | no space, non-breaking space or line feed is left, and the salary text does not grow |
| Details.SalaryKeepsOtherCharacters | data_types/position_details.py:21-23 | the three deletions equal a one-pass filter that keeps every other character in its original order |
| Details.SalaryCounts | data_types/position_details.py:21-23 | every character other than the three blanks keeps its number of occurrences |
| Details.SalaryIdempotent | data_types/position_details.py:21-23 | normalising a normalised salary changes nothing |
| Details.NewPositionDetails | data_types/position_details.py:6-23 | five fields are capitalised forms of their inputs, the salary is the input less its blanks, and the rest are kept as given |
| Details.NewPositionDetailsCharacterised | data_types/position_details.py:6-23 | a record equals the constructed one if and only if the field values describe it in that way |
| Details.RevalidateIdempotent | data_types/position_details.py:6-23 | validating a record's own fields again gives the same record |
| Vacancies.NewVacancy | data_types/vacancy.py:13-27 | the title is capitalised, the descriptions and details are kept, an absolute URL is kept, and a missing timestamp becomes the class-level default |
| Vacancies.UrlValidatorNoOp | data_types/vacancy.py:25-27 | the URL validator does not change a link the scraper has already joined to the same absolute base |
| Vacancies.TitleIdempotent | data_types/vacancy.py:21-23 | re-validating a capitalised title leaves it unchanged |
| Scraper.GetJobDetails | scraper/pro_industry_scraper.py:74-82 | succeeds if and only if every item has a span and there are more than seven; each fragment is the stripped text of its item's first span; the error is IndexError for a missing span and AssertionError otherwise |
| Scraper.FromFragments | scraper/pro_industry_scraper.py:96-106 | the first seven fragments fill seven fields; `hours` comes from the last fragment; `time_length` is the eighth fragment exactly when there are more than eight |
| Scraper.ParsePosition | scraper/pro_industry_scraper.py:84-106 | `None` if and only if the page has no job-details list; a short list or a span-less item raises out of the call; otherwise the record is built from the first list's fragments |
| Scraper.ParseAnchor | scraper/pro_industry_scraper.py:115-135 | a missing href raises TypeError; a non-vacancy link or an unparsable detail page is skipped; detail errors propagate; a missing title or description raises IndexError; a vacancy link with parsed details and all three texts builds a vacancy; a built vacancy carries the anchor's texts, its parsed details and the class-default timestamp |
| Scraper.Collect | scraper/pro_industry_scraper.py:113-140 | the fold succeeds if and only if every step succeeds; otherwise it raises the first step's exception; it keeps one value per step that produced one |
| Scraper.CollectOrder | scraper/pro_industry_scraper.py:114-138 | the collected values are exactly the produced values, in step order |
| Scraper.ParsePage | scraper/pro_industry_scraper.py:108-140 | the page parses if and only if every anchor does; otherwise the first failing anchor's exception; no more vacancies than vacancy links; every vacancy stamped with the class default |
| Scraper.OnlyQualifyingBuild | scraper/pro_industry_scraper.py:117-121 | no more vacancies are built than there are anchors whose href contains `vacature/` |
| Scraper.ParsePageOrder | scraper/pro_industry_scraper.py:114-138 | the page's vacancies come from its anchors in document order, and every anchor that builds one contributes it |
| Scraper.NothingToParse | scraper/pro_industry_scraper.py:117-121 | a page on which every anchor has an href and every vacancy link leads to a page without a job-details list yields no vacancies and raises nothing |
| Scraper.PageUrl | scraper/pro_industry_scraper.py:54-56 | unless the pagination parameter's name holds a `#`, the fetched URL parses back with `<pagination>=<page>` as its whole query and no fragment |
| Scraper.PageUrlShape | scraper/pro_industry_scraper.py:54-56 | the listing URL is the base URL's scheme, authority and path followed by `?<pagination>=<page>`; the base's query and fragment are dropped |
| Scraper.PageUrlInjective | scraper/pro_industry_scraper.py:54-56 | distinct page numbers are fetched from distinct URLs |
| Scraper.ParseSite | scraper/pro_industry_scraper.py:149-166 | at least page 1 is fetched; a truthy limit `L` bounds the last page by `max(2, L - 1)`; every vacancy of a finished run has the class-default timestamp; an aborted run carries the exception of the page it stopped at |
| Scraper.PageRaisesFirst | scraper/pro_industry_scraper.py:114-138 | a page raises the exception of its first anchor that raises |
| Scraper.ShortDetailListAborts | scraper/pro_industry_scraper.py:80-94 | on any page the crawl reaches, a vacancy link whose detail list has fewer than eight items, after anchors that parsed, ends the whole run at that page with AssertionError |
| Scraper.UnparsablePageEndsCrawl | scraper/pro_industry_scraper.py:155-164 | without a limit and with a step budget that reaches it, after pages that all parsed with results, a page on which every anchor has an href and every vacancy link lacks a detail list ends the run there, finished, even though that page has listings |
| Pagination.Crawl | scraper/pro_industry_scraper.py:150-164 | the run stops no earlier than page 1, and an aborted run carries the exception raised by the page it stopped at |
| Pagination.CrawlDone | scraper/pro_industry_scraper.py:149-166 | a finished run returns the results of pages 1 to its last page in page order; every earlier page had results; the last page had none or reached the limit |
| Pagination.CrawlAborts | scraper/pro_industry_scraper.py:151-164 | a page that raises after pages that all had results without reaching the limit ends the run there with its exception |
| Pagination.CrawlAbortedAt | scraper/pro_industry_scraper.py:151-164 | a run ends aborted only at a page that raised, after pages that all had results without reaching the limit |
| Pagination.CrawlStopsAtFirstEmpty | scraper/pro_industry_scraper.py:155-162 | without a limit, the run stops exactly at the first page without results, having collected every page up to it |
| Pagination.CrawlLimitBound | scraper/pro_industry_scraper.py:163-164 | with a truthy limit `L` the run never goes past page `max(2, L - 1)` |
| Pagination.CrawlReachesLimit | scraper/pro_industry_scraper.py:155-164 | with a truthy limit `L` and pages that keep producing results, the run fetches exactly pages 1 to `max(2, L - 1)` |
| Pagination.CrawlReadsOnlyFetched | scraper/pro_industry_scraper.py:155-164 | two sites that agree on the pages up to the last one fetched give the same run |
| FlattenDict.DictOf | utils/flatten_dict.py:22 | `dict(items)` has distinct keys, no more entries than items, and the mapping in which a later pair overrides an earlier one |
| FlattenDict.DictOfKeyOrder | utils/flatten_dict.py:22 | `dict(items)` lists its keys at their first occurrence in the items |
| FlattenDict.FirstOccurrencesCharacterised | utils/flatten_dict.py:22 | the key order used is every key once, ordered by the position where it first occurs |
| FlattenDict.DictOfUnique | utils/flatten_dict.py:22 | items with distinct keys become a dict with the same entries in the same order |
| FlattenDict.Flatten | utils/flatten_dict.py:5-22 | the result has distinct keys |
| FlattenDict.FlattenKeyOrder | utils/flatten_dict.py:11-22 | the flattened dict, and so the CSV columns, lists its keys in the order in which their leaves are first reached |
| FlattenDict.FlattenMatchesPaths | utils/flatten_dict.py:5-22 | the result maps the key of every leaf's path to that leaf, a later leaf winning over an earlier one with the same key |
| FlattenDict.FlattenEntriesAreLeaves | utils/flatten_dict.py:12-20 | every output entry is a leaf value of the input, stored under the key its path gives; no mapping is left as a value |
| FlattenDict.FlattenOwnKeys | utils/flatten_dict.py:13-18 | without `include_parents` the parent key is ignored; with an empty parent key `include_parents` has no effect |
| FlattenDict.FlattenKeyCount | utils/flatten_dict.py:11-22 | the result has at most as many keys as the input has leaves |
| FlattenDict.FlattenFlat | utils/flatten_dict.py:12-22 | flattening a flat dict returns it unchanged |
| FlattenDict.FlattenIdempotent | utils/flatten_dict.py:5-22 | flattening a flattened result changes nothing |

## Left out

- Fetching (`get_page_soup`, `get_position_soup`, the browser and the HTTP session, `scraper/pro_industry_scraper.py:29-72`): I/O. `Site` is a pair of functions from URL to page.
- Retries (the two `@retry` decorators and the session's retry counts): they retry until a fetch succeeds, so in the model every fetch returns a page.
- HTML parsing by BeautifulSoup: a page is reduced to the lists `find_all` would return.
- `sleep`, `logging` and the verbose-logging switch: they have no effect on results.
- `save_to_csv` (pandas and file output), `config/config_handler.py` and `main.py`: I/O and configuration. `flatten_dict` is modelled on its own.
- `datetime.now()`: the clock is outside the model. The class-level default is a parameter (`classDefault`).
- Pydantic type coercion and `Config`: the validators are modelled; the field type checks always pass for the values the scraper passes.
- Pagination.Crawl: the Python loop has no bound. The model takes a step budget and reports `OutOfFuel` when the budget runs out.
- Urls.Join: follows section 5.2.2 of RFC 3986 where Python's `urljoin` differs. The differences left out are:
  - `urljoin` removes dot segments and empty path segments when it merges paths.
  - `urlsplit` lower-cases the scheme.
  - `urlsplit` strips leading control characters and spaces, and deletes tab, CR and LF anywhere in the URL. A scraped `href` with a leading space or a line break therefore resolves differently in Python.
  - `urljoin` takes the base's authority when the reference's authority is present but empty.
  - Python treats an empty query or fragment as absent and drops its `?` or `#` on recomposition.
  - Python handles `;params`, and schemes outside its `uses_relative` and `uses_netloc` lists, separately.
  - `urlsplit` raises `ValueError` for an authority with unbalanced brackets, an invalid IPv6 address in brackets, or non-ASCII characters whose NFKC form contains `/`, `?`, `#`, `@` or `:`. Such an `href` would end the run with that exception at `scraper/pro_industry_scraper.py:118`; the model's `Join` always returns a string.
  - The model's lemmas hold for Python only for links without these features.
- Urls.JoinAbsolute: agrees with Python only for a lower-case scheme, a non-empty authority with no `[`, `]` or non-ASCII character, no whitespace or control characters, no `;` in the last path segment (Python drops an empty `;params`), and no empty `?` or `#`.
- Text.Capitalize: maps ASCII letters only. Python's full Unicode case mapping, including mappings that change the length, is left out.
- Vacancies.NewVacancy: states the stored URL only for an absolute `url`. For a relative one the contract says nothing beyond the URL model's own lemmas.
- Scraper.ParseAnchor: states the vacancy's URL only for an absolute base URL, and never raises the `ValueError` that Python's `urljoin` raises for a malformed authority (see Urls.Join).
- FlattenDict.Flatten: keys are strings, and a nested mapping is a `dict`. Python accepts any hashable key and any `MutableMapping`.

=== FILE: flatten_dict.dfy ===
/**
 `flatten_dict(d, parent_key="", sep=".", include_parents=False)`: turns a
 nested mapping into a single-level one. A Python `dict` is modelled as an
 association list with distinct keys in insertion order; `d[k] = v`
 overwrites in place or appends.
 */
module FlattenDict {

  /** A nested mapping: a leaf is any non-mapping value. */
  datatype Tree<V> = Leaf(value: V) | Node(items: seq<(string, Tree<V>)>)

  // ---------------------------------------------------------------------------
  // Python dicts

  predicate UniqueKeys<V>(d: seq<(string, V)>) {
    forall i, j :: 0 <= i < j < |d| ==> d[i].0 != d[j].0
  }

  predicate HasKey<V>(d: seq<(string, V)>, k: string) {
    exists i :: 0 <= i < |d| && d[i].0 == k
  }

  /** The mapping an association list denotes when later pairs override
      earlier ones. */
  function ToMap<V>(items: seq<(string, V)>): (m: map<string, V>)
    ensures forall k :: k in m <==> HasKey(items, k)
  {
    if |items| == 0 then map[]
    else
      var last := items[|items| - 1];
      var m := ToMap(items[..|items| - 1]);
      assert forall k :: HasKey(items, k) <==> HasKey(items[..|items| - 1], k) || k == last.0 by {
        forall k | HasKey(items, k)
          ensures HasKey(items[..|items| - 1], k) || k == last.0
        {
          var i :| 0 <= i < |items| && items[i].0 == k;
          if i < |items| - 1 { assert items[..|items| - 1][i] == items[i]; }
        }
        forall k | HasKey(items[..|items| - 1], k)
          ensures HasKey(items, k)
        {
          var i :| 0 <= i < |items| - 1 && items[..|items| - 1][i].0 == k;
          assert items[i].0 == k;
        }
      }
      m[last.0 := last.1]
  }

  /** In a dict, each key's value is the one stored with it. */
  lemma {:induction false} ToMapLookup<V>(d: seq<(string, V)>, i: nat)
    requires UniqueKeys(d) && i < |d|
    ensures ToMap(d)[d[i].0] == d[i].1
  {
    var init := d[..|d| - 1];
    if i < |d| - 1 {
      assert init[i] == d[i];
      assert UniqueKeys(init);
      ToMapLookup(init, i);
    }
  }

  /** Python `d[k] = v`: the value of an existing key is replaced in place,
      a new key is appended. */
  function Store<V>(d: seq<(string, V)>, k: string, v: V): (r: seq<(string, V)>)
    ensures UniqueKeys(d) ==> UniqueKeys(r)
    ensures !HasKey(d, k) ==> r == d + [(k, v)]
    ensures HasKey(d, k) ==> |r| == |d| && forall i :: 0 <= i < |d| ==> r[i].0 == d[i].0
  {
    if HasKey(d, k) then seq(|d|, i requires 0 <= i < |d| => if d[i].0 == k then (k, v) else d[i])
    else d + [(k, v)]
  }

  lemma StoreToMap<V>(d: seq<(string, V)>, k: string, v: V)
    requires UniqueKeys(d)
    ensures ToMap(Store(d, k, v)) == ToMap(d)[k := v]
  {
    var r := Store(d, k, v);
    var m := ToMap(d)[k := v];
    if HasKey(d, k) {
      assert forall x :: x in ToMap(r) <==> x in m by {
        forall x
          ensures HasKey(r, x) <==> HasKey(d, x) || x == k
        {
          if HasKey(r, x) {
            var i :| 0 <= i < |r| && r[i].0 == x;
            assert d[i].0 == x;
          }
          if HasKey(d, x) {
            var i :| 0 <= i < |d| && d[i].0 == x;
            assert r[i].0 == x;
          }
        }
      }
      forall x | x in m
        ensures ToMap(r)[x] == m[x]
      {
        var i :| 0 <= i < |d| && d[i].0 == x;
        ToMapLookup(r, i);
        if x != k {
          ToMapLookup(d, i);
        }
      }
    } else {
      ToMapAppend(d, [(k, v)]);
    }
  }

  /** Python `dict(items)`. */
  function DictOf<V>(items: seq<(string, V)>): (r: seq<(string, V)>)
    ensures UniqueKeys(r)
    ensures ToMap(r) == ToMap(items)
    ensures |r| <= |items|
  {
    if |items| == 0 then []
    else
      var last := items[|items| - 1];
      var init := DictOf(items[..|items| - 1]);
      StoreToMap(init, last.0, last.1);
      Store(init, last.0, last.1)
  }

  /** Later pairs override earlier ones across a concatenation. */
  lemma {:induction false} ToMapAppend<V>(a: seq<(string, V)>, b: seq<(string, V)>)
    ensures ToMap(a + b) == ToMap(a) + ToMap(b)
  {
    if |b| == 0 {
      assert a + b == a;
    } else {
      assert (a + b)[..|a + b| - 1] == a + b[..|b| - 1];
      ToMapAppend(a, b[..|b| - 1]);
    }
  }

  /** A dict built from distinct keys keeps them all, in order. */
  lemma {:induction false} DictOfUnique<V>(items: seq<(string, V)>)
    requires UniqueKeys(items)
    ensures DictOf(items) == items
  {
    if |items| > 0 {
      var init := items[..|items| - 1];
      var last := items[|items| - 1];
      assert UniqueKeys(init);
      DictOfUnique(init);
      forall i | 0 <= i < |init|
        ensures init[i].0 != last.0
      {
        assert init[i] == items[i];
      }
      assert init + [last] == items;
    }
  }

  // ---------------------------------------------------------------------------
  // Key order

  /** The keys of an association list, in order. */
  function Keys<V>(d: seq<(string, V)>): (ks: seq<string>)
    ensures |ks| == |d| && forall i :: 0 <= i < |d| ==> ks[i] == d[i].0
  {
    seq(|d|, i requires 0 <= i < |d| => d[i].0)
  }

  lemma KeysAppend<V>(a: seq<(string, V)>, b: seq<(string, V)>)
    ensures Keys(a + b) == Keys(a) + Keys(b)
  {
  }

  /** The keys that occur for the first time at their position, in order. */
  function FirstOccurrences(ks: seq<string>): seq<string> {
    if |ks| == 0 then []
    else
      var init := ks[..|ks| - 1];
      var k := ks[|ks| - 1];
      FirstOccurrences(init) + (if k in init then [] else [k])
  }

  /** The position where `x` occurs first. */
  function FirstIndex(ks: seq<string>, x: string): (i: nat)
    requires x in ks
    ensures i < |ks| && ks[i] == x && x !in ks[..i]
  {
    if ks[0] == x then 0
    else
      var j := FirstIndex(ks[1..], x);
      assert ks[..j + 1] == [ks[0]] + ks[1..][..j];
      j + 1
  }

  lemma FirstIndexUnique(ks: seq<string>, x: string, i: nat)
    requires i < |ks| && ks[i] == x && x !in ks[..i]
    ensures FirstIndex(ks, x) == i
  {
  }

  lemma FirstIndexSnoc(p: seq<string>, x: string, y: string)
    requires y in p
    ensures y in p + [x] && FirstIndex(p + [x], y) == FirstIndex(p, y)
  {
    var f := FirstIndex(p, y);
    assert (p + [x])[..f] == p[..f];
    FirstIndexUnique(p + [x], y, f);
  }

  lemma FirstOccurrencesSnoc(p: seq<string>, x: string)
    ensures FirstOccurrences(p + [x]) == FirstOccurrences(p) + (if x in p then [] else [x])
  {
    assert (p + [x])[..|p|] == p;
  }

  lemma {:induction false} FirstOccurrencesElements(ks: seq<string>)
    ensures forall x :: x in FirstOccurrences(ks) <==> x in ks
  {
    if |ks| > 0 {
      var init := ks[..|ks| - 1];
      FirstOccurrencesElements(init);
      assert ks == init + [ks[|ks| - 1]];
    }
  }

  /** `FirstOccurrences(ks)` lists every key of `ks` once, ordered by the
      position where it first occurs. */
  lemma FirstOccurrencesCharacterised(ks: seq<string>)
    ensures var r := FirstOccurrences(ks);
      && (forall x :: x in r <==> x in ks)
      && (forall i, j :: 0 <= i < j < |r| ==> r[i] != r[j])
      && (forall i, j :: 0 <= i < j < |r| ==> FirstIndex(ks, r[i]) < FirstIndex(ks, r[j]))
  {
    FirstOccurrencesOrdered(ks);
  }

  /** Keys before the last one keep their first position when one more key
      is appended. */
  lemma FirstIndexAcross(init: seq<string>, x: string)
    ensures forall y :: y in init ==>
      y in init + [x] && FirstIndex(init + [x], y) == FirstIndex(init, y) && FirstIndex(init, y) < |init|
  {
    forall y | y in init
      ensures y in init + [x] && FirstIndex(init + [x], y) == FirstIndex(init, y)
    {
      FirstIndexSnoc(init, x, y);
    }
  }

  lemma {:induction false} FirstOccurrencesOrdered(ks: seq<string>)
    ensures var r := FirstOccurrences(ks);
      && (forall x :: x in r <==> x in ks)
      && forall i, j :: 0 <= i < j < |r| ==> r[i] != r[j] && FirstIndex(ks, r[i]) < FirstIndex(ks, r[j])
  {
    FirstOccurrencesElements(ks);
    if |ks| > 0 {
      var init := ks[..|ks| - 1];
      var x := ks[|ks| - 1];
      assert ks == init + [x];
      FirstOccurrencesOrdered(init);
      FirstIndexAcross(init, x);
      var front := FirstOccurrences(init);
      var r := FirstOccurrences(ks);
      if x !in init {
        assert r == front + [x];
        assert FirstIndex(ks, x) == |init| by {
          FirstIndexUnique(ks, x, |init|);
        }
        assert x !in front;
        forall i, j | 0 <= i < j < |r|
          ensures r[i] != r[j] && FirstIndex(ks, r[i]) < FirstIndex(ks, r[j])
        {
          assert r[i] == front[i];
          if j < |front| {
            assert r[j] == front[j];
          }
        }
      } else {
        assert r == front;
      }
    }
  }

  /** Deduplicating a tail first does not change the first occurrences. */
  lemma {:induction false} FirstOccurrencesAbsorb(a: seq<string>, b: seq<string>)
    ensures FirstOccurrences(a + FirstOccurrences(b)) == FirstOccurrences(a + b)
  {
    if |b| == 0 {
      assert a + b == a;
      assert a + FirstOccurrences(b) == a;
    } else {
      var init := b[..|b| - 1];
      var x := b[|b| - 1];
      assert b == init + [x];
      assert a + b == (a + init) + [x];
      FirstOccurrencesAbsorb(a, init);
      FirstOccurrencesSnoc(init, x);
      FirstOccurrencesSnoc(a + init, x);
      FirstOccurrencesElements(init);
      if x in init {
        assert FirstOccurrences(b) == FirstOccurrences(init);
      } else {
        assert a + FirstOccurrences(b) == (a + FirstOccurrences(init)) + [x];
        FirstOccurrencesSnoc(a + FirstOccurrences(init), x);
      }
    }
  }

  /** What follows sees only the first occurrences of what precedes it. */
  lemma {:induction false} FirstOccurrencesCongruent(p: seq<string>, q: seq<string>, c: seq<string>)
    requires FirstOccurrences(p) == FirstOccurrences(q)
    ensures FirstOccurrences(p + c) == FirstOccurrences(q + c)
  {
    if |c| > 0 {
      var init := c[..|c| - 1];
      var x := c[|c| - 1];
      assert p + c == (p + init) + [x];
      assert q + c == (q + init) + [x];
      FirstOccurrencesCongruent(p, q, init);
      FirstOccurrencesSnoc(p + init, x);
      FirstOccurrencesSnoc(q + init, x);
      FirstOccurrencesElements(p);
      FirstOccurrencesElements(q);
    } else {
      assert p + c == p && q + c == q;
    }
  }

  /** `d[k] = v` keeps the key order and appends a new key. */
  lemma StoreKeys<V>(d: seq<(string, V)>, k: string, v: V)
    ensures Keys(Store(d, k, v)) == Keys(d) + (if k in Keys(d) then [] else [k])
  {
    assert k in Keys(d) <==> HasKey(d, k) by {
      if HasKey(d, k) {
        var i :| 0 <= i < |d| && d[i].0 == k;
        assert Keys(d)[i] == k;
      }
    }
  }

  /** `dict(items)` keeps each key where it first occurs. */
  lemma {:induction false} DictOfKeyOrder<V>(items: seq<(string, V)>)
    ensures Keys(DictOf(items)) == FirstOccurrences(Keys(items))
  {
    if |items| > 0 {
      var init := items[..|items| - 1];
      var last := items[|items| - 1];
      var d := DictOf(init);
      var ks := Keys(init);
      assert Keys(items) == ks + [last.0];
      assert DictOf(items) == Store(d, last.0, last.1);
      assert Keys(d) == FirstOccurrences(ks) by {
        DictOfKeyOrder(init);
      }
      assert last.0 in ks <==> last.0 in Keys(d) by {
        FirstOccurrencesElements(ks);
      }
      assert FirstOccurrences(ks + [last.0]) == FirstOccurrences(ks) + (if last.0 in ks then [] else [last.0]) by {
        FirstOccurrencesSnoc(ks, last.0);
      }
      StoreKeys(d, last.0, last.1);
    }
  }

  // ---------------------------------------------------------------------------
  // flatten_dict

  /** The key a top-level item is stored under. */
  function NewKey(parentKey: string, sep: string, includeParents: bool, k: string): string {
    if includeParents then (if parentKey != "" then parentKey + sep + k else k) else k
  }

  /** `flatten_dict(d, parent_key, sep, include_parents)`. */
  function Flatten<V>(d: seq<(string, Tree<V>)>, parentKey: string, sep: string, includeParents: bool): (r: seq<(string, V)>)
    ensures UniqueKeys(r)
    decreases Node(d), 1
  {
    DictOf(Items(d, |d|, parentKey, sep, includeParents))
  }

  /** The `items` list after the loop has visited the first `n` entries of
      `d`. The recursive call passes `new_key` and `sep` but not
      `include_parents`, which therefore takes its default `False`. */
  function Items<V>(d: seq<(string, Tree<V>)>, n: nat, parentKey: string, sep: string, includeParents: bool): seq<(string, V)>
    requires n <= |d|
    decreases Node(d), 0, n
  {
    if n == 0 then []
    else
      Items(d, n - 1, parentKey, sep, includeParents)
      + Entry(d[n - 1].1, NewKey(parentKey, sep, includeParents, d[n - 1].0), sep)
  }

  /** What one entry of `d` adds to `items` under the key `key`: a leaf
      itself, a nested mapping its flattened items, flattened with `key` as
      parent key. */
  function Entry<V>(t: Tree<V>, key: string, sep: string): seq<(string, V)>
    decreases t, 2
  {
    match t
    case Leaf(x) => [(key, x)]
    case Node(children) => Flatten(children, key, sep, false)
  }

  // ---------------------------------------------------------------------------
  // Reference: every leaf with the full path of keys leading to it

  /** Every leaf of `d`, in traversal order, with its path of keys. */
  function Paths<V>(d: seq<(string, Tree<V>)>): (r: seq<(seq<string>, V)>)
    ensures forall i :: 0 <= i < |r| ==> |r[i].0| >= 1
    decreases Node(d), 1
  {
    PathsUpTo(d, |d|)
  }

  function PathsUpTo<V>(d: seq<(string, Tree<V>)>, n: nat): (r: seq<(seq<string>, V)>)
    requires n <= |d|
    ensures forall i :: 0 <= i < |r| ==> |r[i].0| >= 1
    decreases Node(d), 0, n
  {
    if n == 0 then []
    else PathsUpTo(d, n - 1) + PathEntry(d[n - 1].0, d[n - 1].1)
  }

  /** The leaves below the entry `k: t`, with their paths. */
  function PathEntry<V>(k: string, t: Tree<V>): (r: seq<(seq<string>, V)>)
    ensures forall i :: 0 <= i < |r| ==> |r[i].0| >= 1
    decreases t, 2
  {
    match t
    case Leaf(x) => [([k], x)]
    case Node(children) => Under(k, Paths(children))
  }

  /** The paths of a nested mapping seen from its parent entry `k`. */
  function Under<V>(k: string, ps: seq<(seq<string>, V)>): (r: seq<(seq<string>, V)>)
    requires forall i :: 0 <= i < |ps| ==> |ps[i].0| >= 1
    ensures |r| == |ps|
    ensures forall i :: 0 <= i < |r| ==> r[i].0 == [k] + ps[i].0 && r[i].1 == ps[i].1
  {
    seq(|ps|, i requires 0 <= i < |ps| => ([k] + ps[i].0, ps[i].1))
  }

  /** The key under which `flatten_dict` stores the leaf at `path`: its own
      key, with the parent key in front only for a top-level leaf when
      parents are included. */
  function KeyFor(path: seq<string>, parentKey: string, sep: string, includeParents: bool): string
    requires |path| >= 1
  {
    if |path| == 1 then NewKey(parentKey, sep, includeParents, path[0]) else path[|path| - 1]
  }

  function Keyed<V>(ps: seq<(seq<string>, V)>, parentKey: string, sep: string, includeParents: bool): (r: seq<(string, V)>)
    requires forall i :: 0 <= i < |ps| ==> |ps[i].0| >= 1
    ensures |r| == |ps|
  {
    seq(|ps|, i requires 0 <= i < |ps| => (KeyFor(ps[i].0, parentKey, sep, includeParents), ps[i].1))
  }

  lemma KeyedAppend<V>(a: seq<(seq<string>, V)>, b: seq<(seq<string>, V)>, pk: string, sep: string, ip: bool)
    requires forall i :: 0 <= i < |a| ==> |a[i].0| >= 1
    requires forall i :: 0 <= i < |b| ==> |b[i].0| >= 1
    ensures Keyed(a + b, pk, sep, ip) == Keyed(a, pk, sep, ip) + Keyed(b, pk, sep, ip)
  {
  }

  /** Below the top level the parent key plays no part. */
  lemma KeyedUnder<V>(k: string, ps: seq<(seq<string>, V)>, pk: string, sep: string, ip: bool, pk': string)
    requires forall i :: 0 <= i < |ps| ==> |ps[i].0| >= 1
    ensures Keyed(Under(k, ps), pk, sep, ip) == Keyed(ps, pk', sep, false)
  {
    var l := Keyed(Under(k, ps), pk, sep, ip);
    var r := Keyed(ps, pk', sep, false);
    forall i | 0 <= i < |ps|
      ensures l[i] == r[i]
    {
      var p := ps[i].0;
      assert ([k] + p)[|[k] + p| - 1] == p[|p| - 1];
    }
  }

  /** The flattened mapping stores every leaf of `d` under `KeyFor` of its
      path, a later leaf overriding an earlier one with the same key. */
  lemma {:induction false} FlattenMatchesPaths<V>(d: seq<(string, Tree<V>)>, parentKey: string, sep: string, includeParents: bool)
    ensures ToMap(Flatten(d, parentKey, sep, includeParents)) == ToMap(Keyed(Paths(d), parentKey, sep, includeParents))
    decreases Node(d), 1
  {
    ItemsMatchPaths(d, |d|, parentKey, sep, includeParents);
  }

  lemma {:induction false} ItemsMatchPaths<V>(d: seq<(string, Tree<V>)>, n: nat, pk: string, sep: string, ip: bool)
    requires n <= |d|
    ensures ToMap(Items(d, n, pk, sep, ip)) == ToMap(Keyed(PathsUpTo(d, n), pk, sep, ip))
    decreases Node(d), 0, n
  {
    if n > 0 {
      var front := Items(d, n - 1, pk, sep, ip);
      var pfront := PathsUpTo(d, n - 1);
      var e := Entry(d[n - 1].1, NewKey(pk, sep, ip, d[n - 1].0), sep);
      var pe := PathEntry(d[n - 1].0, d[n - 1].1);
      assert Items(d, n, pk, sep, ip) == front + e;
      assert PathsUpTo(d, n) == pfront + pe;
      ItemsMatchPaths(d, n - 1, pk, sep, ip);
      EntryMatchesPaths(d[n - 1].1, d[n - 1].0, pk, sep, ip);
      MatchAppend(front, pfront, e, pe, pk, sep, ip);
    }
  }

  /** One entry's items denote the same mapping as its keyed leaves. */
  lemma {:induction false} EntryMatchesPaths<V>(t: Tree<V>, k: string, pk: string, sep: string, ip: bool)
    ensures ToMap(Entry(t, NewKey(pk, sep, ip, k), sep)) == ToMap(Keyed(PathEntry(k, t), pk, sep, ip))
    decreases t, 2
  {
    var newKey := NewKey(pk, sep, ip, k);
    if t.Leaf? {
      assert Keyed(PathEntry(k, t), pk, sep, ip) == [(newKey, t.value)];
    } else {
      FlattenMatchesPaths(t.items, newKey, sep, false);
      KeyedUnder(k, Paths(t.items), pk, sep, ip, newKey);
    }
  }

  lemma MatchAppend<V>(front: seq<(string, V)>, pfront: seq<(seq<string>, V)>,
                       sub: seq<(string, V)>, psub: seq<(seq<string>, V)>,
                       pk: string, sep: string, ip: bool)
    requires forall i :: 0 <= i < |pfront| ==> |pfront[i].0| >= 1
    requires forall i :: 0 <= i < |psub| ==> |psub[i].0| >= 1
    requires ToMap(front) == ToMap(Keyed(pfront, pk, sep, ip))
    requires ToMap(sub) == ToMap(Keyed(psub, pk, sep, ip))
    ensures ToMap(front + sub) == ToMap(Keyed(pfront + psub, pk, sep, ip))
  {
    ToMapAppend(front, sub);
    KeyedAppend(pfront, psub, pk, sep, ip);
    ToMapAppend(Keyed(pfront, pk, sep, ip), Keyed(psub, pk, sep, ip));
  }

  /** The flattened dict lists its keys in the order in which their leaves
      are first reached, the order that becomes the CSV columns. */
  lemma {:induction false} FlattenKeyOrder<V>(d: seq<(string, Tree<V>)>, parentKey: string, sep: string, includeParents: bool)
    ensures Keys(Flatten(d, parentKey, sep, includeParents))
      == FirstOccurrences(Keys(Keyed(Paths(d), parentKey, sep, includeParents)))
    decreases Node(d), 1
  {
    DictOfKeyOrder(Items(d, |d|, parentKey, sep, includeParents));
    ItemsKeyOrder(d, |d|, parentKey, sep, includeParents);
  }

  lemma {:induction false} ItemsKeyOrder<V>(d: seq<(string, Tree<V>)>, n: nat, pk: string, sep: string, ip: bool)
    requires n <= |d|
    ensures FirstOccurrences(Keys(Items(d, n, pk, sep, ip))) == FirstOccurrences(Keys(Keyed(PathsUpTo(d, n), pk, sep, ip)))
    decreases Node(d), 0, n
  {
    if n > 0 {
      var front := Keys(Items(d, n - 1, pk, sep, ip));
      var pfront := Keys(Keyed(PathsUpTo(d, n - 1), pk, sep, ip));
      var e := Keys(Entry(d[n - 1].1, NewKey(pk, sep, ip, d[n - 1].0), sep));
      var pe := Keys(Keyed(PathEntry(d[n - 1].0, d[n - 1].1), pk, sep, ip));
      assert Keys(Items(d, n, pk, sep, ip)) == front + e by {
        KeysAppend(Items(d, n - 1, pk, sep, ip), Entry(d[n - 1].1, NewKey(pk, sep, ip, d[n - 1].0), sep));
      }
      assert Keys(Keyed(PathsUpTo(d, n), pk, sep, ip)) == pfront + pe by {
        KeyedAppend(PathsUpTo(d, n - 1), PathEntry(d[n - 1].0, d[n - 1].1), pk, sep, ip);
        KeysAppend(Keyed(PathsUpTo(d, n - 1), pk, sep, ip), Keyed(PathEntry(d[n - 1].0, d[n - 1].1), pk, sep, ip));
      }
      ItemsKeyOrder(d, n - 1, pk, sep, ip);
      EntryKeyOrder(d[n - 1].1, d[n - 1].0, pk, sep, ip);
      FirstOccurrencesAbsorb(front, e);
      FirstOccurrencesAbsorb(front, pe);
      FirstOccurrencesCongruent(front, pfront, pe);
    }
  }

  lemma {:induction false} EntryKeyOrder<V>(t: Tree<V>, k: string, pk: string, sep: string, ip: bool)
    ensures FirstOccurrences(Keys(Entry(t, NewKey(pk, sep, ip, k), sep)))
      == FirstOccurrences(Keys(Keyed(PathEntry(k, t), pk, sep, ip)))
    decreases t, 2
  {
    if t.Node? {
      var newKey := NewKey(pk, sep, ip, k);
      var ks := Keys(Keyed(Paths(t.items), newKey, sep, false));
      assert Keys(Entry(t, newKey, sep)) == FirstOccurrences(ks) by {
        assert Entry(t, newKey, sep) == Flatten(t.items, newKey, sep, false);
        FlattenKeyOrder(t.items, newKey, sep, false);
      }
      assert Keyed(PathEntry(k, t), pk, sep, ip) == Keyed(Paths(t.items), newKey, sep, false) by {
        assert PathEntry(k, t) == Under(k, Paths(t.items));
        KeyedUnder(k, Paths(t.items), pk, sep, ip, newKey);
      }
      FirstOccurrencesIdempotent(ks);
    }
  }

  lemma FirstOccurrencesIdempotent(ks: seq<string>)
    ensures FirstOccurrences(FirstOccurrences(ks)) == FirstOccurrences(ks)
  {
    FirstOccurrencesAbsorb([], ks);
    assert [] + ks == ks && [] + FirstOccurrences(ks) == FirstOccurrences(ks);
  }

  // ---------------------------------------------------------------------------
  // Properties

  /** Every value of a denoted mapping comes from a pair with that key. */
  lemma {:induction false} ToMapValueFrom<V>(items: seq<(string, V)>, k: string)
    requires k in ToMap(items)
    ensures exists j :: 0 <= j < |items| && items[j].0 == k && items[j].1 == ToMap(items)[k]
  {
    var init := items[..|items| - 1];
    var last := items[|items| - 1];
    if k != last.0 {
      ToMapValueFrom(init, k);
      var j :| 0 <= j < |init| && init[j].0 == k && init[j].1 == ToMap(init)[k];
      assert items[j] == init[j];
    } else {
      assert items[|items| - 1].0 == k;
    }
  }

  /** Each output entry is a leaf value of the input stored under the key
      `KeyFor` gives its path: no mapping survives as a value. */
  lemma FlattenEntriesAreLeaves<V>(d: seq<(string, Tree<V>)>, parentKey: string, sep: string, includeParents: bool, i: nat)
    requires i < |Flatten(d, parentKey, sep, includeParents)|
    ensures var r := Flatten(d, parentKey, sep, includeParents);
      exists j :: 0 <= j < |Paths(d)|
        && Paths(d)[j].1 == r[i].1
        && KeyFor(Paths(d)[j].0, parentKey, sep, includeParents) == r[i].0
  {
    var r := Flatten(d, parentKey, sep, includeParents);
    var ks := Keyed(Paths(d), parentKey, sep, includeParents);
    FlattenMatchesPaths(d, parentKey, sep, includeParents);
    assert HasKey(r, r[i].0);
    ToMapLookup(r, i);
    ToMapValueFrom(ks, r[i].0);
    var j :| 0 <= j < |ks| && ks[j].0 == r[i].0 && ks[j].1 == ToMap(ks)[r[i].0];
  }

  /** With these arguments every top-level key is stored as it is. */
  predicate KeepsOwnKeys(parentKey: string, includeParents: bool) {
    !includeParents || parentKey == ""
  }

  lemma {:induction false} ItemsOwnKeys<V>(d: seq<(string, Tree<V>)>, n: nat, sep: string,
                                          pk: string, ip: bool, pk': string, ip': bool)
    requires n <= |d|
    requires KeepsOwnKeys(pk, ip) && KeepsOwnKeys(pk', ip')
    ensures Items(d, n, pk, sep, ip) == Items(d, n, pk', sep, ip')
  {
    if n > 0 {
      ItemsOwnKeys(d, n - 1, sep, pk, ip, pk', ip');
      var k := d[n - 1].0;
      assert NewKey(pk, sep, ip, k) == k == NewKey(pk', sep, ip', k);
    }
  }

  /** Without `include_parents` the parent key is ignored, and with the
      default empty parent key `include_parents` changes nothing: in both
      cases every leaf keeps its own key. */
  lemma FlattenOwnKeys<V>(d: seq<(string, Tree<V>)>, parentKey: string, sep: string, includeParents: bool)
    ensures Flatten(d, parentKey, sep, false) == Flatten(d, "", sep, includeParents)
  {
    ItemsOwnKeys(d, |d|, sep, parentKey, false, "", includeParents);
  }

  /** The number of keys never exceeds the number of leaves: duplicate keys
      collapse, the later leaf winning. */
  lemma {:induction false} FlattenKeyCount<V>(d: seq<(string, Tree<V>)>, parentKey: string, sep: string, includeParents: bool)
    ensures |Flatten(d, parentKey, sep, includeParents)| <= |Paths(d)|
    decreases Node(d), 1
  {
    ItemsLength(d, |d|, parentKey, sep, includeParents);
  }

  lemma {:induction false} ItemsLength<V>(d: seq<(string, Tree<V>)>, n: nat, pk: string, sep: string, ip: bool)
    requires n <= |d|
    ensures |Items(d, n, pk, sep, ip)| <= |PathsUpTo(d, n)|
    decreases Node(d), 0, n
  {
    if n > 0 {
      ItemsLength(d, n - 1, pk, sep, ip);
      var k := d[n - 1].0;
      var front := Items(d, n - 1, pk, sep, ip);
      var pfront := PathsUpTo(d, n - 1);
      if d[n - 1].1.Leaf? {
        var x := d[n - 1].1.value;
        assert |Items(d, n, pk, sep, ip)| == |front| + 1 by {
          assert Items(d, n, pk, sep, ip) == front + [(NewKey(pk, sep, ip, k), x)];
        }
        assert |PathsUpTo(d, n)| == |pfront| + 1 by {
          assert PathsUpTo(d, n) == pfront + [([k], x)];
        }
      } else {
        var children := d[n - 1].1.items;
        var sub := Flatten(children, NewKey(pk, sep, ip, k), sep, false);
        assert |Items(d, n, pk, sep, ip)| == |front| + |sub| by {
          assert Items(d, n, pk, sep, ip) == front + sub;
        }
        assert |PathsUpTo(d, n)| == |pfront| + |Paths(children)| by {
          assert PathsUpTo(d, n) == pfront + Under(k, Paths(children));
        }
        FlattenKeyCount(children, NewKey(pk, sep, ip, k), sep, false);
      }
    }
  }

  /** A flat dict seen as a mapping whose values are all leaves. */
  function AsTree<V>(dict: seq<(string, V)>): (d: seq<(string, Tree<V>)>)
    ensures |d| == |dict|
    ensures forall i :: 0 <= i < |d| ==> d[i] == (dict[i].0, Leaf(dict[i].1))
  {
    seq(|dict|, i requires 0 <= i < |dict| => (dict[i].0, Leaf(dict[i].1)))
  }

  lemma {:induction false} ItemsOfFlat<V>(dict: seq<(string, V)>, n: nat, sep: string, ip: bool)
    requires n <= |dict|
    ensures Items(AsTree(dict), n, "", sep, ip) == dict[..n]
  {
    if n > 0 {
      ItemsOfFlat(dict, n - 1, sep, ip);
      assert dict[..n] == dict[..n - 1] + [dict[n - 1]];
    }
  }

  /** Flattening an already flat dict returns it unchanged. */
  lemma FlattenFlat<V>(dict: seq<(string, V)>, sep: string, includeParents: bool)
    requires UniqueKeys(dict)
    ensures Flatten(AsTree(dict), "", sep, includeParents) == dict
  {
    ItemsOfFlat(dict, |dict|, sep, includeParents);
    assert dict[..|dict|] == dict;
    DictOfUnique(dict);
  }

  /** Flattening is idempotent. */
  lemma FlattenIdempotent<V>(d: seq<(string, Tree<V>)>, parentKey: string, sep: string, includeParents: bool)
    ensures var r := Flatten(d, parentKey, sep, includeParents);
      Flatten(AsTree(r), "", sep, includeParents) == r
  {
    FlattenFlat(Flatten(d, parentKey, sep, includeParents), sep, includeParents);
  }
}

=== FILE: outcomes.dfy ===
/**
 The scraper's ways of finishing an operation: a value, nothing (Python's
 `None`), or an exception that propagates to the caller.
 */
module Outcomes {

  /** Python's `X | None`. */
  datatype Option<+T> = None | Some(value: T)

  /** The exceptions the modelled code can raise on its own. */
  datatype Exception =
    | IndexError      // `[0]` on an empty `find_all` result
    | AssertionError  // the `assert` on the number of detail fragments
    | TypeError       // `"..." in None` for an anchor without `href`

  /** Either a returned value or a raised exception. */
  datatype Result<+T> = Ok(value: T) | Raised(error: Exception) {

    predicate IsFailure() {
      Raised?
    }

    function PropagateFailure<U>(): Result<U>
      requires Raised?
    {
      Raised(error)
    }

    function Extract(): T
      requires Ok?
    {
      value
    }
  }
}

=== FILE: pagination.dfy ===
/**
 The pagination loop of `parse_site`, over an oracle from page number to
 that page's outcome. Page 1 is always fetched; while the last page
 produced results the next one is fetched, until a page produces none or a
 truthy `page_limit` is reached. The Python loop has no bound of its own, so
 the model carries a step budget and reports when it ran out.
 */
module Pagination {
  import opened Outcomes

  /** How a crawl ended: the accumulated results and the last page fetched,
      or the exception that aborted it. */
  datatype Run<T> =
    | Done(results: seq<T>, lastPage: nat)
    | Aborted(error: Exception, lastPage: nat)
    | OutOfFuel(results: seq<T>, lastPage: nat)

  function Max(a: int, b: int): int {
    if a < b then b else a
  }

  /** Python's truthiness of the configured `page_limit`. */
  predicate Truthy(limit: Option<int>) {
    limit.Some? && limit.value != 0
  }

  /** The limit check after page `page` was fetched and `page_num` moved on
      to `page + 1`. */
  predicate LimitReached(limit: Option<int>, page: nat) {
    Truthy(limit) && page + 1 >= limit.value
  }

  /** Every page from 1 to `n` was parsed without an exception. */
  ghost predicate AllOk<T>(pages: nat -> Result<seq<T>>, n: nat) {
    forall p :: 1 <= p <= n ==> pages(p).Ok?
  }

  /** The results of pages 1 to `n`, in page order. */
  ghost function Collected<T>(pages: nat -> Result<seq<T>>, n: nat): seq<T>
    requires AllOk(pages, n)
  {
    if n == 0 then [] else Collected(pages, n - 1) + pages(n).value
  }

  /** `parse_site`. */
  function Crawl<T>(pages: nat -> Result<seq<T>>, limit: Option<int>, fuel: nat): (r: Run<T>)
    ensures r.lastPage >= 1
    ensures r.Aborted? ==> pages(r.lastPage) == Raised(r.error)
  {
    match pages(1)
    case Raised(e) => Aborted(e, 1)
    case Ok(first) => if |first| == 0 then Done(first, 1) else Loop(pages, limit, first, 2, fuel)
  }

  /** The `while` loop entered with `page_num == page` after a page that
      produced results; `results` holds everything collected so far. */
  function Loop<T>(pages: nat -> Result<seq<T>>, limit: Option<int>, results: seq<T>, page: nat, fuel: nat): (r: Run<T>)
    requires page >= 2
    ensures r.lastPage >= page - 1
    ensures r.Aborted? ==> r.lastPage >= page && pages(r.lastPage) == Raised(r.error)
    decreases fuel
  {
    if fuel == 0 then OutOfFuel(results, page - 1)
    else
      match pages(page)
      case Raised(e) => Aborted(e, page)
      case Ok(found) =>
        // `extend` only when `found` is non-empty, which is the same as always
        var more := results + found;
        if LimitReached(limit, page) then Done(more, page)
        else if |found| > 0 then Loop(pages, limit, more, page + 1, fuel - 1)
        else Done(more, page)
  }

  /** A finished crawl returns the results of pages 1 to its last page in page
      order; every page before the last produced results, and the last one
      produced none or hit the page limit. */
  lemma CrawlDone<T>(pages: nat -> Result<seq<T>>, limit: Option<int>, fuel: nat)
    requires Crawl(pages, limit, fuel).Done?
    ensures var r := Crawl(pages, limit, fuel);
      && AllOk(pages, r.lastPage)
      && r.results == Collected(pages, r.lastPage)
      && (forall p :: 1 <= p < r.lastPage ==> |pages(p).value| > 0)
      && (|pages(r.lastPage).value| == 0 || (r.lastPage >= 2 && LimitReached(limit, r.lastPage)))
  {
    if |pages(1).value| > 0 {
      assert Collected(pages, 1) == pages(1).value;
      LoopDone(pages, limit, pages(1).value, 2, fuel);
    }
  }

  lemma {:induction false} LoopDone<T>(pages: nat -> Result<seq<T>>, limit: Option<int>, results: seq<T>, page: nat, fuel: nat)
    requires page >= 2
    requires AllOk(pages, page - 1)
    requires results == Collected(pages, page - 1)
    requires forall p :: 1 <= p < page ==> |pages(p).value| > 0
    requires Loop(pages, limit, results, page, fuel).Done?
    ensures var r := Loop(pages, limit, results, page, fuel);
      && AllOk(pages, r.lastPage)
      && r.results == Collected(pages, r.lastPage)
      && (forall p :: 1 <= p < r.lastPage ==> |pages(p).value| > 0)
      && (|pages(r.lastPage).value| == 0 || (r.lastPage >= 2 && LimitReached(limit, r.lastPage)))
    decreases fuel
  {
    var found := pages(page).value;
    assert AllOk(pages, page);
    assert Collected(pages, page) == results + found;
    if !LimitReached(limit, page) && |found| > 0 {
      LoopDone(pages, limit, results + found, page + 1, fuel - 1);
    }
  }

  /** Without a truthy limit the crawl stops right after the first page that
      produces no results, having fetched every page up to it. */
  lemma CrawlStopsAtFirstEmpty<T>(pages: nat -> Result<seq<T>>, limit: Option<int>, fuel: nat, n: nat)
    requires !Truthy(limit)
    requires n >= 1 && AllOk(pages, n)
    requires forall p :: 1 <= p < n ==> |pages(p).value| > 0
    requires |pages(n).value| == 0
    requires fuel >= n - 1
    ensures Crawl(pages, limit, fuel) == Done(Collected(pages, n), n)
  {
    if n == 1 {
      assert Collected(pages, 1) == pages(1).value;
    } else {
      assert Collected(pages, 1) == pages(1).value;
      LoopStopsAtFirstEmpty(pages, limit, fuel, 2, n);
    }
  }

  lemma {:induction false} LoopStopsAtFirstEmpty<T>(pages: nat -> Result<seq<T>>, limit: Option<int>, fuel: nat, page: nat, n: nat)
    requires !Truthy(limit)
    requires 2 <= page <= n && AllOk(pages, n)
    requires forall p :: 1 <= p < n ==> |pages(p).value| > 0
    requires |pages(n).value| == 0
    requires fuel >= n - page + 1
    ensures Loop(pages, limit, Collected(pages, page - 1), page, fuel) == Done(Collected(pages, n), n)
    decreases n - page
  {
    assert Collected(pages, page) == Collected(pages, page - 1) + pages(page).value;
    if page < n {
      LoopStopsAtFirstEmpty(pages, limit, fuel - 1, page + 1, n);
    }
  }

  /** The crawl aborts at page `n` with page `n`'s exception when every
      earlier page produced results without reaching the limit. */
  lemma CrawlAborts<T>(pages: nat -> Result<seq<T>>, limit: Option<int>, fuel: nat, n: nat)
    requires n >= 1 && fuel >= n - 1
    requires forall p :: 1 <= p < n ==> pages(p).Ok? && |pages(p).value| > 0
    requires forall p :: 2 <= p < n ==> !LimitReached(limit, p)
    requires pages(n).Raised?
    ensures Crawl(pages, limit, fuel) == Aborted(pages(n).error, n)
  {
    if n > 1 {
      LoopAborts(pages, limit, pages(1).value, fuel, 2, n);
    }
  }

  lemma {:induction false} LoopAborts<T>(pages: nat -> Result<seq<T>>, limit: Option<int>, results: seq<T>,
                                         fuel: nat, page: nat, n: nat)
    requires 2 <= page <= n && fuel >= n - page + 1
    requires forall p :: page <= p < n ==> pages(p).Ok? && |pages(p).value| > 0 && !LimitReached(limit, p)
    requires pages(n).Raised?
    ensures Loop(pages, limit, results, page, fuel) == Aborted(pages(n).error, n)
    decreases n - page
  {
    if page < n {
      LoopAborts(pages, limit, results + pages(page).value, fuel - 1, page + 1, n);
    }
  }

  /** An aborted crawl stopped at a page that raised, after pages that all
      produced results without reaching the limit. */
  lemma CrawlAbortedAt<T>(pages: nat -> Result<seq<T>>, limit: Option<int>, fuel: nat)
    requires Crawl(pages, limit, fuel).Aborted?
    ensures var r := Crawl(pages, limit, fuel);
      && pages(r.lastPage) == Raised(r.error)
      && (forall p :: 1 <= p < r.lastPage ==> pages(p).Ok? && |pages(p).value| > 0)
      && (forall p :: 2 <= p < r.lastPage ==> !LimitReached(limit, p))
      && fuel >= r.lastPage - 1
  {
    if pages(1).Ok? {
      LoopAbortedAt(pages, limit, pages(1).value, 2, fuel);
    }
  }

  lemma {:induction false} LoopAbortedAt<T>(pages: nat -> Result<seq<T>>, limit: Option<int>, results: seq<T>, page: nat, fuel: nat)
    requires page >= 2
    requires Loop(pages, limit, results, page, fuel).Aborted?
    ensures var r := Loop(pages, limit, results, page, fuel);
      && r.lastPage >= page
      && pages(r.lastPage) == Raised(r.error)
      && (forall p :: page <= p < r.lastPage ==> pages(p).Ok? && |pages(p).value| > 0 && !LimitReached(limit, p))
      && fuel >= r.lastPage - page + 1
    decreases fuel
  {
    if pages(page).Ok? {
      LoopAbortedAt(pages, limit, results + pages(page).value, page + 1, fuel - 1);
    }
  }

  /** With a truthy limit `L` the crawl never goes past page `max(2, L - 1)`. */
  lemma CrawlLimitBound<T>(pages: nat -> Result<seq<T>>, limit: Option<int>, fuel: nat)
    requires Truthy(limit)
    ensures Crawl(pages, limit, fuel).lastPage <= Max(2, limit.value - 1)
  {
    if pages(1).Ok? && |pages(1).value| > 0 {
      LoopLimitBound(pages, limit, pages(1).value, 2, fuel);
    }
  }

  lemma {:induction false} LoopLimitBound<T>(pages: nat -> Result<seq<T>>, limit: Option<int>, results: seq<T>, page: nat, fuel: nat)
    requires Truthy(limit)
    requires 2 <= page <= Max(2, limit.value - 1)
    ensures Loop(pages, limit, results, page, fuel).lastPage <= Max(2, limit.value - 1)
    decreases fuel
  {
    if fuel > 0 && pages(page).Ok? && !LimitReached(limit, page) && |pages(page).value| > 0 {
      LoopLimitBound(pages, limit, results + pages(page).value, page + 1, fuel - 1);
    }
  }

  /** With a truthy limit `L` and pages that keep producing results, the
      crawl fetches exactly pages 1 to `max(2, L - 1)`: two pages for any
      `L <= 3`, and for `L >= 3` never page `L` itself. */
  lemma CrawlReachesLimit<T>(pages: nat -> Result<seq<T>>, limit: Option<int>, fuel: nat)
    requires Truthy(limit)
    requires AllOk(pages, Max(2, limit.value - 1))
    requires forall p :: 1 <= p < Max(2, limit.value - 1) ==> |pages(p).value| > 0
    requires fuel >= Max(2, limit.value - 1) - 1
    ensures var last := Max(2, limit.value - 1);
      Crawl(pages, limit, fuel) == Done(Collected(pages, last), last)
  {
    assert Collected(pages, 1) == pages(1).value;
    LoopReachesLimit(pages, limit, fuel, 2);
  }

  lemma {:induction false} LoopReachesLimit<T>(pages: nat -> Result<seq<T>>, limit: Option<int>, fuel: nat, page: nat)
    requires Truthy(limit)
    requires 2 <= page <= Max(2, limit.value - 1)
    requires AllOk(pages, Max(2, limit.value - 1))
    requires forall p :: 1 <= p < Max(2, limit.value - 1) ==> |pages(p).value| > 0
    requires fuel >= Max(2, limit.value - 1) - page + 1
    ensures var last := Max(2, limit.value - 1);
      Loop(pages, limit, Collected(pages, page - 1), page, fuel) == Done(Collected(pages, last), last)
    decreases Max(2, limit.value - 1) - page
  {
    assert Collected(pages, page) == Collected(pages, page - 1) + pages(page).value;
    if page < Max(2, limit.value - 1) {
      LoopReachesLimit(pages, limit, fuel - 1, page + 1);
    }
  }

  /** The crawl consults no page after its last one: two oracles that agree
      on pages 1 to the last page give the same run. */
  lemma CrawlReadsOnlyFetched<T>(pages: nat -> Result<seq<T>>, other: nat -> Result<seq<T>>, limit: Option<int>, fuel: nat)
    requires forall p :: 1 <= p <= Crawl(pages, limit, fuel).lastPage ==> other(p) == pages(p)
    ensures Crawl(other, limit, fuel) == Crawl(pages, limit, fuel)
  {
    if pages(1).Ok? && |pages(1).value| > 0 {
      LoopReadsOnlyFetched(pages, other, limit, pages(1).value, 2, fuel);
    }
  }

  lemma {:induction false} LoopReadsOnlyFetched<T>(pages: nat -> Result<seq<T>>, other: nat -> Result<seq<T>>, limit: Option<int>,
                                                  results: seq<T>, page: nat, fuel: nat)
    requires page >= 2
    requires forall p :: page <= p <= Loop(pages, limit, results, page, fuel).lastPage ==> other(p) == pages(p)
    ensures Loop(other, limit, results, page, fuel) == Loop(pages, limit, results, page, fuel)
    decreases fuel
  {
    if fuel > 0 {
      assert other(page) == pages(page);
      if pages(page).Ok? && !LimitReached(limit, page) && |pages(page).value| > 0 {
        LoopReadsOnlyFetched(pages, other, limit, results + pages(page).value, page + 1, fuel - 1);
      }
    }
  }

  /** A property of every page's results holds of the collected results. */
  lemma {:induction false} CollectedAll<T>(pages: nat -> Result<seq<T>>, n: nat, P: T -> bool)
    requires AllOk(pages, n)
    requires forall p :: 1 <= p <= n ==> forall x :: x in pages(p).value ==> P(x)
    ensures forall x :: x in Collected(pages, n) ==> P(x)
  {
    if n > 0 {
      CollectedAll(pages, n - 1, P);
    }
  }
}

=== FILE: position_details.dfy ===
/**
 The `PositionDetails` record and its two field validators: `capitalize`
 for the descriptive fields and `validate_salary_range`, which deletes
 spaces, non-breaking spaces and line feeds from the salary text.
 */
module Details {
  import opened Outcomes
  import opened Text

  /** One detail page's fields. `timeLength` is the only optional one. */
  datatype PositionDetails = PositionDetails(
    location: string,
    salaryRange: string,
    jobType: string,
    contractType: string,
    positionName: string,
    industry: string,
    requiredEducation: string,
    timeLength: Option<string>,
    hours: string)

  const NoBreakSpace: char := '\U{A0}'

  /** The characters `validate_salary_range` deletes. */
  predicate IsSalaryBlank(c: char) {
    c == ' ' || c == NoBreakSpace || c == '\n'
  }

  /** `validate_salary_range`: three successive `replace(c, "")` calls. */
  function ValidateSalaryRange(salary: string): (r: string)
    ensures forall i :: 0 <= i < |r| ==> !IsSalaryBlank(r[i])
    ensures |r| <= |salary|
  {
    var r1 := RemoveChar(salary, ' ');
    var r2 := RemoveChar(r1, NoBreakSpace);
    var r := RemoveChar(r2, '\n');
    assert forall i :: 0 <= i < |r| ==> r[i] in r && r[i] in r2 && r[i] in r1;
    r
  }

  /** The independent reading of the validator: keep every character that is
      not a salary blank, in order, in one pass. */
  function KeepNonBlank(s: string): (r: string)
  {
    if |s| == 0 then ""
    else (if IsSalaryBlank(s[0]) then "" else [s[0]]) + KeepNonBlank(s[1..])
  }

  lemma {:induction false} RemoveCharAppend(a: string, b: string, c: char)
    ensures RemoveChar(a + b, c) == RemoveChar(a, c) + RemoveChar(b, c)
  {
    if |a| > 0 {
      assert (a + b)[1..] == a[1..] + b;
      RemoveCharAppend(a[1..], b, c);
    } else {
      assert a + b == b;
    }
  }

  /** The validator works character by character. */
  lemma SalaryAppend(a: string, b: string)
    ensures ValidateSalaryRange(a + b) == ValidateSalaryRange(a) + ValidateSalaryRange(b)
  {
    RemoveCharAppend(a, b, ' ');
    RemoveCharAppend(RemoveChar(a, ' '), RemoveChar(b, ' '), NoBreakSpace);
    RemoveCharAppend(RemoveChar(RemoveChar(a, ' '), NoBreakSpace), RemoveChar(RemoveChar(b, ' '), NoBreakSpace), '\n');
  }

  lemma SalaryOfCharacter(c: char)
    ensures ValidateSalaryRange([c]) == if IsSalaryBlank(c) then "" else [c]
  {
    assert [c][1..] == "";
  }

  /** The three deletions together keep exactly the non-blank characters in
      their original order. */
  lemma {:induction false} SalaryKeepsOtherCharacters(s: string)
    ensures ValidateSalaryRange(s) == KeepNonBlank(s)
  {
    if |s| > 0 {
      assert s == [s[0]] + s[1..];
      SalaryAppend([s[0]], s[1..]);
      SalaryOfCharacter(s[0]);
      SalaryKeepsOtherCharacters(s[1..]);
    }
  }

  /** Every character other than the three blanks survives as often as it
      occurred, so a tab in the salary text is kept. */
  lemma SalaryCounts(s: string, c: char)
    requires !IsSalaryBlank(c)
    ensures multiset(ValidateSalaryRange(s))[c] == multiset(s)[c]
  {
    var r1 := RemoveChar(s, ' ');
    var r2 := RemoveChar(r1, NoBreakSpace);
    RemoveCharCounts(s, ' ');
    RemoveCharCounts(r1, NoBreakSpace);
    RemoveCharCounts(r2, '\n');
  }

  /** Normalising an already normalised salary changes nothing. */
  lemma SalaryIdempotent(s: string)
    ensures ValidateSalaryRange(ValidateSalaryRange(s)) == ValidateSalaryRange(s)
  {
    var r := ValidateSalaryRange(s);
    SalaryKeepsOtherCharacters(r);
    KeepNonBlankOfClean(r);
  }

  lemma {:induction false} KeepNonBlankOfClean(s: string)
    requires forall i :: 0 <= i < |s| ==> !IsSalaryBlank(s[i])
    ensures KeepNonBlank(s) == s
  {
    if |s| > 0 {
      KeepNonBlankOfClean(s[1..]);
    }
  }

  /** `d` is what the validators make of the given field values: the five
      descriptive fields capitalised, the salary without blanks, the rest as
      given. */
  predicate Describes(
    d: PositionDetails,
    location: string, salaryRange: string, jobType: string, contractType: string,
    positionName: string, industry: string, requiredEducation: string,
    timeLength: Option<string>, hours: string)
  {
    && IsCapitalized(d.location) && SameIgnoringCase(d.location, location)
    && IsCapitalized(d.jobType) && SameIgnoringCase(d.jobType, jobType)
    && IsCapitalized(d.contractType) && SameIgnoringCase(d.contractType, contractType)
    && IsCapitalized(d.positionName) && SameIgnoringCase(d.positionName, positionName)
    && IsCapitalized(d.industry) && SameIgnoringCase(d.industry, industry)
    && d.salaryRange == KeepNonBlank(salaryRange)
    && d.requiredEducation == requiredEducation
    && d.timeLength == timeLength
    && d.hours == hours
  }

  /** The pydantic constructor with its `pre` validators. */
  function NewPositionDetails(
    location: string, salaryRange: string, jobType: string, contractType: string,
    positionName: string, industry: string, requiredEducation: string,
    timeLength: Option<string>, hours: string): (r: PositionDetails)
    ensures Describes(r, location, salaryRange, jobType, contractType, positionName,
      industry, requiredEducation, timeLength, hours)
  {
    SalaryKeepsOtherCharacters(salaryRange);
    PositionDetails(
      Capitalize(location), ValidateSalaryRange(salaryRange), Capitalize(jobType),
      Capitalize(contractType), Capitalize(positionName), Capitalize(industry),
      requiredEducation, timeLength, hours)
  }

  /** The constructed record is the only one the field values describe. */
  lemma NewPositionDetailsCharacterised(
    d: PositionDetails,
    location: string, salaryRange: string, jobType: string, contractType: string,
    positionName: string, industry: string, requiredEducation: string,
    timeLength: Option<string>, hours: string)
    ensures d == NewPositionDetails(location, salaryRange, jobType, contractType, positionName,
        industry, requiredEducation, timeLength, hours)
      <==> Describes(d, location, salaryRange, jobType, contractType, positionName,
        industry, requiredEducation, timeLength, hours)
  {
    CapitalizeCharacterised(location, d.location);
    CapitalizeCharacterised(jobType, d.jobType);
    CapitalizeCharacterised(contractType, d.contractType);
    CapitalizeCharacterised(positionName, d.positionName);
    CapitalizeCharacterised(industry, d.industry);
  }

  /** The record's invariant after construction. */
  predicate Normalised(d: PositionDetails) {
    && IsCapitalized(d.location)
    && IsCapitalized(d.jobType)
    && IsCapitalized(d.contractType)
    && IsCapitalized(d.positionName)
    && IsCapitalized(d.industry)
    && forall i :: 0 <= i < |d.salaryRange| ==> !IsSalaryBlank(d.salaryRange[i])
  }

  /** Re-validating a constructed record gives the same record. */
  lemma RevalidateIdempotent(d: PositionDetails)
    requires Normalised(d)
    ensures NewPositionDetails(d.location, d.salaryRange, d.jobType, d.contractType,
      d.positionName, d.industry, d.requiredEducation, d.timeLength, d.hours) == d
  {
    KeepNonBlankOfClean(d.salaryRange);
    assert SameIgnoringCase(d.location, d.location);
    assert SameIgnoringCase(d.jobType, d.jobType);
    assert SameIgnoringCase(d.contractType, d.contractType);
    assert SameIgnoringCase(d.positionName, d.positionName);
    assert SameIgnoringCase(d.industry, d.industry);
    NewPositionDetailsCharacterised(d, d.location, d.salaryRange, d.jobType, d.contractType,
      d.positionName, d.industry, d.requiredEducation, d.timeLength, d.hours);
  }
}

=== FILE: scraper.dfy ===
/**
 `ProIndustryScraper`'s parsing logic with the network taken out: a detail
 page is the list of its job-details `<ul>`s, a listing page is its result
 blocks of anchors, and the site is a pair of oracles from URL to page. The
 browser, the HTTP session and their retries always deliver a page.
 */
module Scraper {
  import opened Outcomes
  import opened Text
  import opened Urls
  import opened Details
  import opened Vacancies
  import opened Pagination

  /** The texts of the `<span>`s of one `<li>`, in document order. */
  type ListItem = seq<string>

  /** A detail page reduced to its `<ul>`s of the job-details class. */
  datatype DetailPage = DetailPage(detailLists: seq<seq<ListItem>>)

  /** One `<a>` of a result block: its `href` attribute and the texts of the
      title `<h2>`s, brief-description `<span>`s and full-description
      `<div>`s inside it. */
  datatype Anchor = Anchor(href: Option<string>, titles: seq<string>, briefs: seq<string>, fulls: seq<string>)

  /** A listing page reduced to its result `<div>`s, each with its anchors. */
  datatype ListingPage = ListingPage(results: seq<seq<Anchor>>)

  /** The configuration values the parser reads. */
  datatype Settings = Settings(baseUrl: string, pagination: string, pageLimit: Option<int>)

  /** What the browser and the HTTP session return for a URL. */
  datatype Site = Site(listing: string -> ListingPage, detail: string -> DetailPage)

  // ---------------------------------------------------------------------------
  // get_job_details

  predicate AllHaveSpan(ul: seq<ListItem>) {
    forall i :: 0 <= i < |ul| ==> |ul[i]| > 0
  }

  /** The stripped text of each item's first span, in document order. */
  function FirstSpanTexts(ul: seq<ListItem>): (r: seq<string>)
    requires AllHaveSpan(ul)
    ensures |r| == |ul|
  {
    seq(|ul|, i requires 0 <= i < |ul| => Strip(ul[i][0]))
  }

  /** `get_job_details`: the loop raises `IndexError` at the first item
      without a span, otherwise collects one fragment per item; the
      `assert` then demands at least eight. */
  function GetJobDetails(ul: seq<ListItem>): (r: Result<seq<string>>)
    ensures r.Ok? <==> AllHaveSpan(ul) && |ul| > 7
    ensures r.Ok? ==> |r.value| == |ul| && forall i :: 0 <= i < |ul| ==> r.value[i] == Strip(ul[i][0])
    ensures r.Raised? && !AllHaveSpan(ul) ==> r.error == IndexError
    ensures r.Raised? && AllHaveSpan(ul) ==> r.error == AssertionError
  {
    if !AllHaveSpan(ul) then Raised(IndexError)
    else if |ul| > 7 then Ok(FirstSpanTexts(ul))
    else Raised(AssertionError)
  }

  // ---------------------------------------------------------------------------
  // parse_position

  /** The keyword arguments of the `PositionDetails` call: seven fragments
      by position, `time_length` only when there are more than eight, and
      `hours` from the last one. */
  function FromFragments(f: seq<string>): (r: PositionDetails)
    requires |f| >= 8
    ensures Describes(r, f[0], f[1], f[2], f[3], f[4], f[5], f[6], r.timeLength, f[|f| - 1])
    ensures r.timeLength.Some? <==> |f| > 8
    ensures r.timeLength.Some? ==> r.timeLength.value == f[7]
    ensures |f| == 8 ==> r.hours == f[7]
  {
    var timeLength := if |f| > 8 then Some(f[7]) else None;
    NewPositionDetails(f[0], f[1], f[2], f[3], f[4], f[5], f[6], timeLength, f[|f| - 1])
  }

  /** `parse_position` on the fetched page. A missing list is the only
      `None`; the call to `get_job_details` is outside the `try`, so its
      exceptions reach the caller. */
  function ParsePosition(page: DetailPage): (r: Result<Option<PositionDetails>>)
    ensures r == Ok(None) <==> |page.detailLists| == 0
    ensures |page.detailLists| > 0 ==>
      var ul := page.detailLists[0];
      && (r.Raised? <==> !AllHaveSpan(ul) || |ul| <= 7)
      && (r.Raised? && !AllHaveSpan(ul) ==> r.error == IndexError)
      && (r.Raised? && AllHaveSpan(ul) ==> r.error == AssertionError)
    ensures r.Ok? && r.value.Some? ==>
      var ul := page.detailLists[0];
      && |ul| >= 8 && AllHaveSpan(ul)
      && r.value.value == FromFragments(FirstSpanTexts(ul))
  {
    if |page.detailLists| == 0 then Ok(None)
    else
      var ul := page.detailLists[0];
      var fragments :- GetJobDetails(ul);
      Ok(Some(FromFragments(fragments)))
  }

  // ---------------------------------------------------------------------------
  // parse_page

  const VacancyMarker: string := "vacature/"

  /** An anchor whose `href` leads to a vacancy. */
  predicate Qualifies(a: Anchor) {
    a.href.Some? && Contains(a.href.value, VacancyMarker)
  }

  /** One pass of the inner loop of `parse_page`: `None` when the anchor is
      skipped, the new `Vacancy` when one is built. */
  function ParseAnchor(s: Settings, classDefault: Timestamp, site: Site, a: Anchor): (r: Result<Option<Vacancy>>)
    ensures a.href.None? ==> r == Raised(TypeError)
    ensures a.href.Some? && !Contains(a.href.value, VacancyMarker) ==> r == Ok(None)
    ensures Qualifies(a) ==>
      var d := ParsePosition(site.detail(Join(s.baseUrl, a.href.value)));
      && (d.Raised? ==> r == Raised(d.error))
      && (d == Ok(None) ==> r == Ok(None))
      && (d.Ok? && d.value.Some? ==> (r.Raised? <==> |a.titles| == 0 || |a.briefs| == 0 || |a.fulls| == 0))
      && (d.Ok? && d.value.Some? && r.Ok? ==> r.value.Some?)
    ensures r.Raised? && Qualifies(a) && ParsePosition(site.detail(Join(s.baseUrl, a.href.value))).Ok? ==>
      r.error == IndexError
    ensures r.Ok? && r.value.Some? ==>
      var v := r.value.value;
      && Qualifies(a)
      && |a.titles| > 0 && |a.briefs| > 0 && |a.fulls| > 0
      && IsCapitalized(v.title) && SameIgnoringCase(v.title, a.titles[0])
      && v.briefDescription == a.briefs[0]
      && v.fullDescription == Strip(a.fulls[0])
      && ParsePosition(site.detail(Join(s.baseUrl, a.href.value))) == Ok(Some(v.positionDetails))
      && (IsAbsolute(s.baseUrl) ==> v.url == Join(s.baseUrl, a.href.value))
      && v.dateParsed == classDefault
  {
    if a.href.None? then Raised(TypeError)
    else if !Contains(a.href.value, VacancyMarker) then Ok(None)
    else
      var url := Join(s.baseUrl, a.href.value);
      var details :- ParsePosition(site.detail(url));
      if details.None? then Ok(None)
      else if |a.titles| == 0 || |a.briefs| == 0 || |a.fulls| == 0 then Raised(IndexError)
      else
        assert IsAbsolute(s.baseUrl) ==> Join(s.baseUrl, url) == url by {
          if IsAbsolute(s.baseUrl) { JoinIdempotent(s.baseUrl, a.href.value); }
        }
        Ok(Some(NewVacancy(s.baseUrl, classDefault, a.titles[0], a.briefs[0], Strip(a.fulls[0]),
          url, details.value, None)))
  }

  /** The number of anchors that lead to a vacancy. */
  function QualifyingCount(anchors: seq<Anchor>): nat {
    if |anchors| == 0 then 0
    else (if Qualifies(anchors[0]) then 1 else 0) + QualifyingCount(anchors[1..])
  }

  /** The number of outcomes that carry a value. */
  function SomeCount<T>(outcomes: seq<Result<Option<T>>>): nat {
    if |outcomes| == 0 then 0
    else (if outcomes[0].Ok? && outcomes[0].value.Some? then 1 else 0) + SomeCount(outcomes[1..])
  }

  /** The loop body's outcomes folded as the loop folds them: the first
      exception ends the loop, a `None` is skipped, a value is appended. */
  function Collect<T>(outcomes: seq<Result<Option<T>>>): (r: Result<seq<T>>)
    ensures r.Ok? <==> forall i :: 0 <= i < |outcomes| ==> outcomes[i].Ok?
    ensures r.Raised? ==>
      exists i :: 0 <= i < |outcomes| && outcomes[i] == Raised(r.error) && (forall j :: 0 <= j < i ==> outcomes[j].Ok?)
    ensures r.Ok? ==> |r.value| == SomeCount(outcomes)
  {
    if |outcomes| == 0 then Ok([])
    else
      var rest := Collect(outcomes[1..]);
      assert forall i :: 1 <= i < |outcomes| ==> outcomes[1..][i - 1] == outcomes[i];
      if outcomes[0].Raised? then
        Raised(outcomes[0].error)
      else if rest.Raised? then
        ghost var i :| 0 <= i < |outcomes[1..]|
          && outcomes[1..][i] == Raised(rest.error)
          && (forall j :: 0 <= j < i ==> outcomes[1..][j].Ok?);
        assert outcomes[i + 1] == Raised(rest.error);
        Raised(rest.error)
      else
        Ok((if outcomes[0].value.Some? then [outcomes[0].value.value] else []) + rest.value)
  }

  /** Position `k` of `vs` is the value of outcome `idx[k]`. */
  ghost predicate MapsTo<T>(outcomes: seq<Result<Option<T>>>, vs: seq<T>, idx: seq<nat>) {
    && |idx| == |vs|
    && forall k :: 0 <= k < |idx| ==> idx[k] < |outcomes| && outcomes[idx[k]] == Ok(Some(vs[k]))
  }

  predicate Increasing(idx: seq<nat>) {
    forall k, l :: 0 <= k < l < |idx| ==> idx[k] < idx[l]
  }

  /** Every outcome that carries a value is listed in `idx`. */
  ghost predicate Covers<T>(outcomes: seq<Result<Option<T>>>, idx: seq<nat>) {
    forall i :: 0 <= i < |outcomes| && outcomes[i].Ok? && outcomes[i].value.Some? ==> i in idx
  }

  /** `vs` lists the values of `outcomes` in order: position `k` comes from
      outcome `idx[k]`, the indices increase, and every outcome that carries
      a value is listed. */
  ghost predicate IndexedBy<T>(outcomes: seq<Result<Option<T>>>, vs: seq<T>, idx: seq<nat>) {
    MapsTo(outcomes, vs, idx) && Increasing(idx) && Covers(outcomes, idx)
  }

  function Shift(idx: seq<nat>): (r: seq<nat>)
    ensures |r| == |idx| && forall k :: 0 <= k < |idx| ==> r[k] == idx[k] + 1
  {
    seq(|idx|, k requires 0 <= k < |idx| => idx[k] + 1)
  }

  lemma ShiftMapsTo<T>(first: Result<Option<T>>, tail: seq<Result<Option<T>>>, vs: seq<T>, idx: seq<nat>)
    requires MapsTo(tail, vs, idx)
    ensures MapsTo([first] + tail, vs, Shift(idx))
  {
    var outcomes := [first] + tail;
    forall k | 0 <= k < |idx|
      ensures Shift(idx)[k] < |outcomes| && outcomes[Shift(idx)[k]] == Ok(Some(vs[k]))
    {
      assert outcomes[idx[k] + 1] == tail[idx[k]];
    }
  }

  lemma ShiftCovers<T>(first: Result<Option<T>>, tail: seq<Result<Option<T>>>, idx: seq<nat>)
    requires Covers(tail, idx)
    ensures forall i :: 1 <= i < |tail| + 1 && ([first] + tail)[i].Ok? && ([first] + tail)[i].value.Some? ==> i in Shift(idx)
  {
    var outcomes := [first] + tail;
    forall i | 1 <= i < |outcomes| && outcomes[i].Ok? && outcomes[i].value.Some?
      ensures i in Shift(idx)
    {
      assert outcomes[i] == tail[i - 1];
      var k :| 0 <= k < |idx| && idx[k] == i - 1;
      assert Shift(idx)[k] == i;
    }
  }

  /** An outcome in front that carries no value leaves the values as they
      were and moves every index up by one. */
  lemma IndexedSkip<T>(first: Result<Option<T>>, tail: seq<Result<Option<T>>>, vs: seq<T>, idx: seq<nat>)
    requires first == Ok(None)
    requires IndexedBy(tail, vs, idx)
    ensures IndexedBy([first] + tail, vs, Shift(idx))
  {
    ShiftMapsTo(first, tail, vs, idx);
    ShiftCovers(first, tail, idx);
  }

  /** An outcome in front that carries `v` puts `v` first, at index 0. */
  lemma IndexedKeep<T>(v: T, tail: seq<Result<Option<T>>>, vs: seq<T>, idx: seq<nat>)
    requires IndexedBy(tail, vs, idx)
    ensures IndexedBy([Ok(Some(v))] + tail, [v] + vs, [0] + Shift(idx))
  {
    KeepMapsTo(v, tail, vs, idx);
    KeepIncreasing(idx);
    KeepCovers(v, tail, idx);
  }

  lemma KeepMapsTo<T>(v: T, tail: seq<Result<Option<T>>>, vs: seq<T>, idx: seq<nat>)
    requires MapsTo(tail, vs, idx)
    ensures MapsTo([Ok(Some(v))] + tail, [v] + vs, [0] + Shift(idx))
  {
    var first := Ok(Some(v));
    var outcomes := [first] + tail;
    var all := [0] + Shift(idx);
    ShiftMapsTo(first, tail, vs, idx);
    forall k | 0 <= k < |all|
      ensures all[k] < |outcomes| && outcomes[all[k]] == Ok(Some(([v] + vs)[k]))
    {
      if k > 0 {
        assert all[k] == Shift(idx)[k - 1];
      }
    }
  }

  lemma KeepIncreasing(idx: seq<nat>)
    requires Increasing(idx)
    ensures Increasing([0] + Shift(idx))
  {
    var all := [0] + Shift(idx);
    forall k, l | 0 <= k < l < |all|
      ensures all[k] < all[l]
    {
      assert all[l] == idx[l - 1] + 1;
      if k > 0 { assert all[k] == idx[k - 1] + 1; }
    }
  }

  lemma KeepCovers<T>(v: T, tail: seq<Result<Option<T>>>, idx: seq<nat>)
    requires Covers(tail, idx)
    ensures Covers([Ok(Some(v))] + tail, [0] + Shift(idx))
  {
    var first := Ok(Some(v));
    var outcomes := [first] + tail;
    var all := [0] + Shift(idx);
    ShiftCovers(first, tail, idx);
    forall i | 0 <= i < |outcomes| && outcomes[i].Ok? && outcomes[i].value.Some?
      ensures i in all
    {
      if i > 0 {
        assert i in Shift(idx);
      }
    }
  }

  /** The values collected are exactly those of the outcomes, in order. */
  lemma {:induction false} CollectOrder<T>(outcomes: seq<Result<Option<T>>>)
    requires Collect(outcomes).Ok?
    ensures exists idx: seq<nat> :: IndexedBy(outcomes, Collect(outcomes).value, idx)
  {
    var vs := Collect(outcomes).value;
    if |outcomes| == 0 {
      assert IndexedBy(outcomes, vs, []);
    } else {
      var first := outcomes[0];
      var tail := outcomes[1..];
      var rest := Collect(tail);
      assert outcomes == [first] + tail;
      assert rest.Ok? && first.Ok?;
      CollectOrder(tail);
      var idx0: seq<nat> :| IndexedBy(tail, rest.value, idx0);
      if first.value.Some? {
        assert vs == [first.value.value] + rest.value;
        IndexedKeep(first.value.value, tail, rest.value, idx0);
        assert IndexedBy(outcomes, vs, [0] + Shift(idx0));
      } else {
        assert vs == rest.value;
        IndexedSkip(first, tail, rest.value, idx0);
        assert IndexedBy(outcomes, vs, Shift(idx0));
      }
    }
  }

  /** Each anchor's outcome, in document order. */
  function AnchorOutcomes(s: Settings, classDefault: Timestamp, site: Site, anchors: seq<Anchor>): (r: seq<Result<Option<Vacancy>>>)
    ensures |r| == |anchors|
    ensures forall i :: 0 <= i < |anchors| ==> r[i] == ParseAnchor(s, classDefault, site, anchors[i])
  {
    seq(|anchors|, i requires 0 <= i < |anchors| => ParseAnchor(s, classDefault, site, anchors[i]))
  }

  /** All the anchors of a listing page, block by block. */
  function PageAnchors(page: ListingPage): seq<Anchor> {
    Concat(page.results)
  }

  function Concat<T>(ss: seq<seq<T>>): seq<T> {
    if |ss| == 0 then [] else ss[0] + Concat(ss[1..])
  }

  /** `parse_page`: the vacancies built from the page's anchors, in document
      order, each stamped with the class default; the first exception
      aborts the page. */
  function ParsePage(s: Settings, classDefault: Timestamp, site: Site, page: ListingPage): (r: Result<seq<Vacancy>>)
    ensures var anchors := PageAnchors(page);
      && (r.Ok? <==> forall i :: 0 <= i < |anchors| ==> ParseAnchor(s, classDefault, site, anchors[i]).Ok?)
      && (r.Raised? ==>
            exists i :: (0 <= i < |anchors| && ParseAnchor(s, classDefault, site, anchors[i]) == Raised(r.error)
              && forall j :: 0 <= j < i ==> ParseAnchor(s, classDefault, site, anchors[j]).Ok?))
      && (r.Ok? ==> |r.value| <= QualifyingCount(anchors))
      && (r.Ok? ==> forall k :: 0 <= k < |r.value| ==> r.value[k].dateParsed == classDefault)
  {
    var anchors := PageAnchors(page);
    var outcomes := AnchorOutcomes(s, classDefault, site, anchors);
    var r := Collect(outcomes);
    assert r.Ok? ==> |r.value| <= QualifyingCount(anchors) by {
      if r.Ok? { OnlyQualifyingBuild(s, classDefault, site, anchors); }
    }
    assert r.Ok? ==> forall k :: 0 <= k < |r.value| ==> r.value[k].dateParsed == classDefault by {
      if r.Ok? {
        CollectOrder(outcomes);
      }
    }
    r
  }

  /** Only an anchor that leads to a vacancy can build one. */
  lemma {:induction false} OnlyQualifyingBuild(s: Settings, classDefault: Timestamp, site: Site, anchors: seq<Anchor>)
    ensures SomeCount(AnchorOutcomes(s, classDefault, site, anchors)) <= QualifyingCount(anchors)
  {
    if |anchors| > 0 {
      var outcomes := AnchorOutcomes(s, classDefault, site, anchors);
      assert outcomes[1..] == AnchorOutcomes(s, classDefault, site, anchors[1..]);
      OnlyQualifyingBuild(s, classDefault, site, anchors[1..]);
    }
  }

  /** The vacancies of a page come from its anchors in document order, and
      every anchor that builds one contributes it. */
  lemma ParsePageOrder(s: Settings, classDefault: Timestamp, site: Site, page: ListingPage)
    requires ParsePage(s, classDefault, site, page).Ok?
    ensures exists idx: seq<nat> :: IndexedBy(AnchorOutcomes(s, classDefault, site, PageAnchors(page)),
      ParsePage(s, classDefault, site, page).value, idx)
  {
    CollectOrder(AnchorOutcomes(s, classDefault, site, PageAnchors(page)));
  }

  /** A page on which no anchor leads to a parsable detail list yields no
      vacancies, without raising. */
  lemma NothingToParse(s: Settings, classDefault: Timestamp, site: Site, page: ListingPage)
    requires forall i :: 0 <= i < |PageAnchors(page)| ==> PageAnchors(page)[i].href.Some?
    requires forall i :: 0 <= i < |PageAnchors(page)| && Qualifies(PageAnchors(page)[i]) ==>
      |site.detail(Join(s.baseUrl, PageAnchors(page)[i].href.value)).detailLists| == 0
    ensures ParsePage(s, classDefault, site, page) == Ok([])
  {
    var outcomes := AnchorOutcomes(s, classDefault, site, PageAnchors(page));
    assert forall i :: 0 <= i < |outcomes| ==> outcomes[i] == Ok(None);
    NoneCollectsNothing(outcomes);
  }

  lemma {:induction false} NoneCollectsNothing<T>(outcomes: seq<Result<Option<T>>>)
    requires forall i :: 0 <= i < |outcomes| ==> outcomes[i] == Ok(None)
    ensures Collect(outcomes) == Ok([])
  {
    if |outcomes| > 0 {
      assert forall i :: 1 <= i < |outcomes| ==> outcomes[1..][i - 1] == outcomes[i];
      NoneCollectsNothing(outcomes[1..]);
    }
  }

  // ---------------------------------------------------------------------------
  // get_page_soup: the listing URL

  /** The query of the listing URL, `f"{pagination}={page}"`. */
  function PageQuery(s: Settings, page: nat): string {
    s.pagination + "=" + NatToString(page)
  }

  /** `urljoin(base_url, f"?{pagination}={page}")`. Unless the parameter
      name holds a '#', the fetched URL carries `<pagination>=<page>` as its
      whole query and has no fragment. */
  function PageUrl(s: Settings, page: nat): (r: string)
    ensures '#' !in s.pagination ==> Parse(r).query == Some(PageQuery(s, page)) && Parse(r).fragment.None?
  {
    PageQueryParses(s, page);
    Join(s.baseUrl, "?" + PageQuery(s, page))
  }

  lemma PageQueryParses(s: Settings, page: nat)
    ensures '#' !in s.pagination ==>
      var url := Join(s.baseUrl, "?" + PageQuery(s, page));
      Parse(url).query == Some(PageQuery(s, page)) && Parse(url).fragment.None?
  {
    if '#' !in s.pagination {
      QueryHasNoHash(s.pagination, page);
      ParseJoinQuery(s.baseUrl, PageQuery(s, page));
    }
  }

  /** The page URL is the base URL's scheme, authority and path followed by
      the new query; the base's own query and fragment are dropped. */
  lemma PageUrlShape(s: Settings, page: nat)
    requires '#' !in s.pagination
    ensures PageUrl(s, page) == SchemeText(Parse(s.baseUrl)) + HierText(Parse(s.baseUrl)) + "?" + PageQuery(s, page)
  {
    QueryHasNoHash(s.pagination, page);
    JoinQuery(s.baseUrl, PageQuery(s, page));
  }

  /** Distinct page numbers are fetched from distinct URLs. */
  lemma PageUrlInjective(s: Settings, a: nat, b: nat)
    requires '#' !in s.pagination
    requires PageUrl(s, a) == PageUrl(s, b)
    ensures a == b
  {
    PageUrlShape(s, a);
    PageUrlShape(s, b);
    var prefix := SchemeText(Parse(s.baseUrl)) + HierText(Parse(s.baseUrl)) + "?";
    assert (prefix + PageQuery(s, a))[|prefix|..] == PageQuery(s, a);
    assert (prefix + PageQuery(s, b))[|prefix|..] == PageQuery(s, b);
    var name := s.pagination + "=";
    assert PageQuery(s, a)[|name|..] == NatToString(a);
    assert PageQuery(s, b)[|name|..] == NatToString(b);
    NatToStringInjective(a, b);
  }

  lemma QueryHasNoHash(pagination: string, page: nat)
    requires '#' !in pagination
    ensures '#' !in pagination + "=" + NatToString(page)
  {
    var digits := NatToString(page);
    forall i | 0 <= i < |digits| ensures digits[i] != '#' {
      assert IsDigit(digits[i]);
    }
  }

  // ---------------------------------------------------------------------------
  // parse_site

  /** The outcome of parsing listing page `page`. */
  function ListingOutcomes(s: Settings, classDefault: Timestamp, site: Site): nat -> Result<seq<Vacancy>> {
    (page: nat) => ParsePage(s, classDefault, site, site.listing(PageUrl(s, page)))
  }

  /** `parse_site`, with at most `fuel` pages after the first. */
  function ParseSite(s: Settings, classDefault: Timestamp, site: Site, fuel: nat): (r: Run<Vacancy>)
    ensures r.lastPage >= 1
    ensures Truthy(s.pageLimit) ==> r.lastPage <= Max(2, s.pageLimit.value - 1)
    ensures r.Done? ==> forall v :: v in r.results ==> v.dateParsed == classDefault
    ensures r.Aborted? ==> ListingOutcomes(s, classDefault, site)(r.lastPage) == Raised(r.error)
  {
    var pages := ListingOutcomes(s, classDefault, site);
    var r := Crawl(pages, s.pageLimit, fuel);
    assert Truthy(s.pageLimit) ==> r.lastPage <= Max(2, s.pageLimit.value - 1) by {
      if Truthy(s.pageLimit) { CrawlLimitBound(pages, s.pageLimit, fuel); }
    }
    assert r.Done? ==> forall v :: v in r.results ==> v.dateParsed == classDefault by {
      CrawlStamped(s, classDefault, site, fuel);
    }
    assert r.Aborted? ==> pages(r.lastPage) == Raised(r.error) by {
      if r.Aborted? { CrawlAbortedAt(pages, s.pageLimit, fuel); }
    }
    r
  }

  /** A finished crawl stamps every vacancy with the class default. */
  lemma CrawlStamped(s: Settings, classDefault: Timestamp, site: Site, fuel: nat)
    ensures var r := Crawl(ListingOutcomes(s, classDefault, site), s.pageLimit, fuel);
      r.Done? ==> forall v :: v in r.results ==> v.dateParsed == classDefault
  {
    var pages := ListingOutcomes(s, classDefault, site);
    var r := Crawl(pages, s.pageLimit, fuel);
    if !r.Done? { return; }
    CrawlDone(pages, s.pageLimit, fuel);
    forall p, v | 1 <= p <= r.lastPage && v in pages(p).value
      ensures v.dateParsed == classDefault
    {
      var page := site.listing(PageUrl(s, p));
      assert pages(p) == ParsePage(s, classDefault, site, page);
      var k :| 0 <= k < |pages(p).value| && pages(p).value[k] == v;
    }
    CollectedAll(pages, r.lastPage, (v: Vacancy) => v.dateParsed == classDefault);
  }

  /** A page raises the exception of its first anchor that raises. */
  lemma PageRaisesFirst(s: Settings, classDefault: Timestamp, site: Site, page: ListingPage, i: nat)
    requires var anchors := PageAnchors(page);
      && i < |anchors| && ParseAnchor(s, classDefault, site, anchors[i]).Raised?
      && forall j :: 0 <= j < i ==> ParseAnchor(s, classDefault, site, anchors[j]).Ok?
    ensures ParsePage(s, classDefault, site, page) == Raised(ParseAnchor(s, classDefault, site, PageAnchors(page)[i]).error)
  {
    var anchors := PageAnchors(page);
    var r := ParsePage(s, classDefault, site, page);
    assert r.Raised?;
    var k :| 0 <= k < |anchors| && ParseAnchor(s, classDefault, site, anchors[k]) == Raised(r.error)
      && forall j :: 0 <= j < k ==> ParseAnchor(s, classDefault, site, anchors[j]).Ok?;
    assert k == i;
  }

  /** A vacancy link whose detail list is shorter than eight items aborts the
      whole run with the assertion error instead of being skipped, on any
      page the crawl reaches, once the anchors before it have parsed. */
  lemma ShortDetailListAborts(s: Settings, classDefault: Timestamp, site: Site, fuel: nat, n: nat, i: nat)
    requires n >= 1 && fuel >= n - 1
    requires forall p :: 1 <= p < n ==>
      ListingOutcomes(s, classDefault, site)(p).Ok? && |ListingOutcomes(s, classDefault, site)(p).value| > 0
    requires forall p :: 2 <= p < n ==> !LimitReached(s.pageLimit, p)
    requires var anchors := PageAnchors(site.listing(PageUrl(s, n)));
      && i < |anchors| && Qualifies(anchors[i])
      && (forall j :: 0 <= j < i ==> ParseAnchor(s, classDefault, site, anchors[j]).Ok?)
      && var lists := site.detail(Join(s.baseUrl, anchors[i].href.value)).detailLists;
      && |lists| > 0 && AllHaveSpan(lists[0]) && |lists[0]| <= 7
    ensures ParseSite(s, classDefault, site, fuel) == Aborted(AssertionError, n)
  {
    var pages := ListingOutcomes(s, classDefault, site);
    var page := site.listing(PageUrl(s, n));
    assert pages(n) == Raised(AssertionError) by {
      assert ParseAnchor(s, classDefault, site, PageAnchors(page)[i]) == Raised(AssertionError);
      PageRaisesFirst(s, classDefault, site, page, i);
      assert pages(n) == ParsePage(s, classDefault, site, page);
    }
    assert Crawl(pages, s.pageLimit, fuel) == Aborted(AssertionError, n) by {
      CrawlAborts(pages, s.pageLimit, fuel, n);
    }
    assert ParseSite(s, classDefault, site, fuel) == Crawl(pages, s.pageLimit, fuel);
  }

  /** Without a page limit, a page on which no anchor yields a detail list
      ends the crawl, even though the page itself had listings. */
  lemma UnparsablePageEndsCrawl(s: Settings, classDefault: Timestamp, site: Site, fuel: nat, n: nat)
    requires !Truthy(s.pageLimit)
    requires n >= 1 && fuel >= n - 1
    requires var pages := ListingOutcomes(s, classDefault, site);
      forall p :: 1 <= p < n ==> pages(p).Ok? && |pages(p).value| > 0
    requires var anchors := PageAnchors(site.listing(PageUrl(s, n)));
      && (forall i :: 0 <= i < |anchors| ==> anchors[i].href.Some?)
      && (forall i :: 0 <= i < |anchors| && Qualifies(anchors[i]) ==>
            |site.detail(Join(s.baseUrl, anchors[i].href.value)).detailLists| == 0)
    ensures ParseSite(s, classDefault, site, fuel).Done?
    ensures ParseSite(s, classDefault, site, fuel).lastPage == n
  {
    var pages := ListingOutcomes(s, classDefault, site);
    assert pages(n) == Ok([]) by {
      assert pages(n) == ParsePage(s, classDefault, site, site.listing(PageUrl(s, n)));
      NothingToParse(s, classDefault, site, site.listing(PageUrl(s, n)));
    }
    assert AllOk(pages, n) && forall p :: 1 <= p < n ==> |pages(p).value| > 0;
    CrawlStopsAtFirstEmpty(pages, s.pageLimit, fuel, n);
    assert ParseSite(s, classDefault, site, fuel) == Crawl(pages, s.pageLimit, fuel);
  }
}

=== FILE: text.dfy ===
/**
 The string operations the scraper borrows from Python's `str`: `strip()`,
 `capitalize()`, `replace(c, "")`, the `in` substring test and the decimal
 rendering of a page number. Case mapping is restricted to ASCII.
 */
module Text {

  // ---------------------------------------------------------------------------
  // str.strip()

  /** Python's `str.isspace()` for one character. */
  predicate IsSpace(c: char) {
    || c == ' '
    || ('\t' <= c <= '\r')                  // tab, line feed, vertical tab, form feed, carriage return
    || ('\U{1C}' <= c <= '\U{1F}')          // file, group, record and unit separators
    || c == '\U{85}' || c == '\U{A0}' || c == '\U{1680}'
    || ('\U{2000}' <= c <= '\U{200A}')
    || c == '\U{2028}' || c == '\U{2029}' || c == '\U{202F}' || c == '\U{205F}' || c == '\U{3000}'
  }

  predicate AllSpace(s: string) {
    forall i :: 0 <= i < |s| ==> IsSpace(s[i])
  }

  /** Neither end of `s` is whitespace. */
  predicate Trimmed(s: string) {
    |s| == 0 || (!IsSpace(s[0]) && !IsSpace(s[|s| - 1]))
  }

  /** `s` with its leading whitespace removed. */
  function StripStart(s: string): (r: string)
    ensures |r| <= |s| && r == s[|s| - |r|..]
    ensures AllSpace(s[..|s| - |r|])
    ensures |r| == 0 || !IsSpace(r[0])
  {
    if |s| > 0 && IsSpace(s[0]) then StripStart(s[1..]) else s
  }

  /** `s` with its trailing whitespace removed. */
  function StripEnd(s: string): (r: string)
    ensures |r| <= |s| && r == s[..|r|]
    ensures AllSpace(s[|r|..])
    ensures |r| == 0 || !IsSpace(r[|r| - 1])
  {
    if |s| > 0 && IsSpace(s[|s| - 1]) then StripEnd(s[..|s| - 1]) else s
  }

  /** `r` is `s` less the whitespace run `s[..i]` before it and the whitespace
      after it. */
  predicate StrippedAt(s: string, r: string, i: nat) {
    && i + |r| <= |s|
    && r == s[i..i + |r|]
    && AllSpace(s[..i])
    && AllSpace(s[i + |r|..])
  }

  /** Python's `s.strip()`: the infix of `s` left after removing the whitespace
      at both ends. */
  function Strip(s: string): (r: string)
    ensures Trimmed(r)
    ensures exists i :: StrippedAt(s, r, i)
  {
    var t := StripStart(s);
    var r := StripEnd(t);
    var i := |s| - |t|;
    assert t == s[i..];
    assert r == s[i..i + |r|];
    assert s[i + |r|..] == t[|r|..];
    assert StrippedAt(s, r, i);
    assert |r| > 0 ==> r[0] == t[0];
    r
  }

  /** A string that has no whitespace at either end is left alone by `strip()`. */
  lemma StripTrimmed(s: string)
    requires Trimmed(s)
    ensures Strip(s) == s
  {
  }

  /** `strip()` is idempotent. */
  lemma StripIdempotent(s: string)
    ensures Strip(Strip(s)) == Strip(s)
  {
    StripTrimmed(Strip(s));
  }

  // ---------------------------------------------------------------------------
  // str.capitalize()

  predicate IsAsciiUpper(c: char) { 'A' <= c <= 'Z' }
  predicate IsAsciiLower(c: char) { 'a' <= c <= 'z' }

  function Upper(c: char): (u: char)
    ensures !IsAsciiLower(u)
  {
    if IsAsciiLower(c) then (c as int - 32) as char else c
  }

  function Lower(c: char): (l: char)
    ensures !IsAsciiUpper(l)
  {
    if IsAsciiUpper(c) then (c as int + 32) as char else c
  }

  /** First character upper case, every other character lower case. */
  predicate IsCapitalized(s: string) {
    && (|s| == 0 || s[0] == Upper(s[0]))
    && forall i :: 1 <= i < |s| ==> s[i] == Lower(s[i])
  }

  /** `a` and `b` spell the same text up to ASCII letter case. */
  predicate SameIgnoringCase(a: string, b: string) {
    |a| == |b| && forall i :: 0 <= i < |a| ==> Lower(a[i]) == Lower(b[i])
  }

  /** Python's `s.capitalize()` over ASCII. */
  function Capitalize(s: string): (r: string)
    ensures IsCapitalized(r)
    ensures SameIgnoringCase(r, s)
  {
    if |s| == 0 then ""
    else [Upper(s[0])] + seq(|s| - 1, i requires 0 <= i < |s| - 1 => Lower(s[i + 1]))
  }

  /** The capitalised form of `s` is the one string that is capitalised and
      equal to `s` up to letter case. */
  lemma CapitalizeCharacterised(s: string, t: string)
    ensures t == Capitalize(s) <==> IsCapitalized(t) && SameIgnoringCase(t, s)
  {
    if IsCapitalized(t) && SameIgnoringCase(t, s) {
      var c := Capitalize(s);
      forall i | 0 <= i < |t|
        ensures t[i] == c[i]
      {
        assert Lower(t[i]) == Lower(s[i]);
      }
    }
  }

  /** Capitalising twice changes nothing. */
  lemma CapitalizeIdempotent(s: string)
    ensures Capitalize(Capitalize(s)) == Capitalize(s)
  {
    var c := Capitalize(s);
    CapitalizeCharacterised(c, c);
  }

  // ---------------------------------------------------------------------------
  // str.replace(c, "")

  /** Python's `s.replace(c, "")` for a one-character `c`. The contract says
      what disappears; `RemoveCharCounts` says every other character keeps
      its count, and the salary validator's `SalaryKeepsOtherCharacters`
      says the order is kept. */
  function RemoveChar(s: string, c: char): (r: string)
    ensures c !in r
    ensures |r| <= |s|
    ensures forall x :: x in r ==> x in s
  {
    if |s| == 0 then ""
    else (if s[0] == c then "" else [s[0]]) + RemoveChar(s[1..], c)
  }

  /** Exactly the occurrences of `c` are removed: every other character
      keeps its count. */
  lemma {:induction false} RemoveCharCounts(s: string, c: char)
    ensures multiset(RemoveChar(s, c)) == multiset(s)[c := 0]
  {
    if |s| > 0 {
      assert s == [s[0]] + s[1..];
      RemoveCharCounts(s[1..], c);
    }
  }

  // ---------------------------------------------------------------------------
  // the `in` operator on strings

  /** `sub` occurs in `s` starting at index `i`. */
  predicate OccursAt(s: string, sub: string, i: int) {
    0 <= i <= |s| - |sub| && s[i..i + |sub|] == sub
  }

  /** Python's `sub in s`. */
  function Contains(s: string, sub: string): (b: bool)
    ensures b <==> exists i :: OccursAt(s, sub, i)
    decreases |s|
  {
    if |sub| > |s| then false
    else if s[..|sub|] == sub then
      assert OccursAt(s, sub, 0);
      true
    else
      var b := Contains(s[1..], sub);
      assert b <==> exists i :: OccursAt(s, sub, i) by {
        forall i | OccursAt(s[1..], sub, i)
          ensures OccursAt(s, sub, i + 1)
        {
          assert s[1..][i..i + |sub|] == s[i + 1..i + 1 + |sub|];
        }
        forall i | OccursAt(s, sub, i)
          ensures OccursAt(s[1..], sub, i - 1)
        {
          assert i != 0;
          assert s[1..][i - 1..i - 1 + |sub|] == s[i..i + |sub|];
        }
      }
      b
  }

  // ---------------------------------------------------------------------------
  // f"{n}" for a page number

  predicate IsDigit(c: char) { '0' <= c <= '9' }

  function DigitChar(d: nat): (c: char)
    requires d < 10
    ensures IsDigit(c)
  {
    ('0' as int + d) as char
  }

  /** The decimal rendering of `n`, without leading zeros. */
  function NatToString(n: nat): (s: string)
    ensures |s| > 0
    ensures forall i :: 0 <= i < |s| ==> IsDigit(s[i])
    ensures s[0] == '0' ==> s == "0"
  {
    if n < 10 then [DigitChar(n)] else NatToString(n / 10) + [DigitChar(n % 10)]
  }

  /** The number a string of decimal digits denotes. */
  function DigitsValue(s: string): nat
    requires forall i :: 0 <= i < |s| ==> IsDigit(s[i])
  {
    if |s| == 0 then 0
    else
      assert IsDigit(s[|s| - 1]);
      DigitsValue(s[..|s| - 1]) * 10 + (s[|s| - 1] as int - '0' as int)
  }

  /** Reading back the rendering of `n` gives `n`. */
  lemma {:induction false} NatToStringRoundTrip(n: nat)
    ensures DigitsValue(NatToString(n)) == n
  {
    if n >= 10 {
      var s := NatToString(n);
      assert s[..|s| - 1] == NatToString(n / 10);
      NatToStringRoundTrip(n / 10);
    }
  }

  /** Distinct numbers render as distinct strings. */
  lemma NatToStringInjective(a: nat, b: nat)
    requires NatToString(a) == NatToString(b)
    ensures a == b
  {
    NatToStringRoundTrip(a);
    NatToStringRoundTrip(b);
  }
}

=== FILE: urls.dfy ===
/**
 `urljoin(base, url)`, the reference resolution of section 5.2 of RFC 3986:
 a URL is split into its five components (appendix B), the reference's
 components are resolved against the base's (section 5.2.2, in the
 non-strict form that ignores a reference scheme equal to the base scheme),
 and the result is recomposed (section 5.3). Removal of dot segments is not
 part of this model.
 */
module Urls {
  import opened Outcomes
  import Text

  // ---------------------------------------------------------------------------
  // Components

  /** The five components of section 3 of RFC 3986; `None` means undefined,
      which differs from defined and empty. */
  datatype Uri = Uri(
    scheme: Option<string>,
    authority: Option<string>,
    path: string,
    query: Option<string>,
    fragment: Option<string>)

  predicate IsAlpha(c: char) { Text.IsAsciiUpper(c) || Text.IsAsciiLower(c) }

  predicate IsSchemeChar(c: char) {
    IsAlpha(c) || '0' <= c <= '9' || c == '+' || c == '-' || c == '.'
  }

  /** scheme = ALPHA *( ALPHA / DIGIT / "+" / "-" / "." ) */
  predicate ValidScheme(scheme: string) {
    && |scheme| > 0
    && IsAlpha(scheme[0])
    && forall i :: 0 <= i < |scheme| ==> IsSchemeChar(scheme[i])
  }

  /** Splits `s` at the first `c`: the text before it and, if `c` occurs, the
      text after it. */
  function SplitAt(s: string, c: char): (r: (string, Option<string>))
    ensures c !in r.0
    ensures r.1.None? ==> r.0 == s
    ensures r.1.Some? ==> s == r.0 + [c] + r.1.value
  {
    if |s| == 0 then ("", None)
    else if s[0] == c then ("", Some(s[1..]))
    else
      var t := SplitAt(s[1..], c);
      assert t.1.Some? ==> s == [s[0]] + t.0 + [c] + t.1.value;
      ([s[0]] + t.0, t.1)
  }

  /** `SplitAt` undoes the joining of a `c`-free text with what follows `c`. */
  lemma {:induction false} SplitAtJoined(a: string, c: char, rest: Option<string>)
    requires c !in a
    ensures SplitAt(a + (if rest.Some? then [c] + rest.value else ""), c) == (a, rest)
  {
    var s := a + (if rest.Some? then [c] + rest.value else "");
    if |a| == 0 {
      assert s == (if rest.Some? then [c] + rest.value else "");
    } else {
      assert s[0] == a[0] && a[0] != c;
      assert s[1..] == a[1..] + (if rest.Some? then [c] + rest.value else "");
      SplitAtJoined(a[1..], c, rest);
      assert SplitAt(s, c) == ([s[0]] + SplitAt(s[1..], c).0, SplitAt(s[1..], c).1);
      assert [a[0]] + a[1..] == a;
    }
  }

  /** Length of the run of scheme characters that starts `s`. */
  function SchemeRun(s: string): (n: nat)
    ensures n <= |s|
    ensures forall i :: 0 <= i < n ==> IsSchemeChar(s[i])
    ensures n < |s| ==> !IsSchemeChar(s[n])
  {
    if |s| > 0 && IsSchemeChar(s[0]) then 1 + SchemeRun(s[1..]) else 0
  }

  lemma {:induction false} SchemeRunOf(scheme: string, rest: string)
    requires forall i :: 0 <= i < |scheme| ==> IsSchemeChar(scheme[i])
    ensures SchemeRun(scheme + ":" + rest) == |scheme|
  {
    if |scheme| > 0 {
      assert (scheme + ":" + rest)[1..] == scheme[1..] + ":" + rest;
      SchemeRunOf(scheme[1..], rest);
    }
  }

  /** Splits off a leading `scheme ":"`, if `s` has one. */
  function SplitScheme(s: string): (r: (Option<string>, string))
    ensures r.0.None? ==> r.1 == s
    ensures r.0.Some? ==> ValidScheme(r.0.value) && s == r.0.value + ":" + r.1
  {
    var n := SchemeRun(s);
    if n > 0 && IsAlpha(s[0]) && n < |s| && s[n] == ':' then
      assert s == s[..n] + ":" + s[n + 1..];
      (Some(s[..n]), s[n + 1..])
    else (None, s)
  }

  /** The hier-part: `"//" authority path` or a bare path. */
  function SplitAuthority(s: string): (r: (Option<string>, string))
    ensures r.0.None? ==> r.1 == s && !(|s| >= 2 && s[..2] == "//")
    ensures r.0.Some? ==> s == "//" + r.0.value + r.1 && '/' !in r.0.value
    ensures r.0.Some? ==> r.1 == "" || r.1[0] == '/'
  {
    if |s| >= 2 && s[..2] == "//" then
      var t := SplitAt(s[2..], '/');
      if t.1.Some? then
        assert s == "//" + t.0 + ("/" + t.1.value);
        (Some(t.0), "/" + t.1.value)
      else
        (Some(t.0), "")
    else (None, s)
  }

  /** Appendix B of RFC 3986: the fragment is everything after the first
      '#', the query everything between the first '?' and that '#', and the
      rest is scheme, authority and path. */
  function Parse(s: string): Uri {
    var f := SplitAt(s, '#');
    var q := SplitAt(f.0, '?');
    var sc := SplitScheme(q.0);
    var au := SplitAuthority(sc.1);
    Uri(sc.0, au.0, au.1, q.1, f.1)
  }

  /** Section 5.3 of RFC 3986. */
  function Recompose(u: Uri): string {
    SchemeText(u) + HierText(u) + QueryText(u) + FragmentText(u)
  }

  function SchemeText(u: Uri): string {
    if u.scheme.Some? then u.scheme.value + ":" else ""
  }

  function HierText(u: Uri): string {
    (if u.authority.Some? then "//" + u.authority.value else "") + u.path
  }

  function QueryText(u: Uri): string {
    if u.query.Some? then "?" + u.query.value else ""
  }

  function FragmentText(u: Uri): string {
    if u.fragment.Some? then "#" + u.fragment.value else ""
  }

  /** Components that recompose into a string parsing back to them: each
      component is free of the delimiters that would end it early. */
  predicate WellFormed(u: Uri) {
    && u.scheme.Some?
    && ValidScheme(u.scheme.value)
    && (u.authority.Some? ==> '/' !in u.authority.value && '?' !in u.authority.value && '#' !in u.authority.value)
    && (u.authority.Some? ==> u.path == "" || u.path[0] == '/')
    && (u.authority.None? ==> !(|u.path| >= 2 && u.path[..2] == "//"))
    && '?' !in u.path && '#' !in u.path
    && (u.query.Some? ==> '#' !in u.query.value)
  }

  /** The part of `s` before its query and fragment. */
  function BeforeQuery(s: string): string {
    SplitAt(SplitAt(s, '#').0, '?').0
  }

  lemma RecomposeHier(s: string)
    ensures SchemeText(Parse(s)) + HierText(Parse(s)) == BeforeQuery(s)
  {
    var sc := SplitScheme(BeforeQuery(s));
    assert HierText(Parse(s)) == sc.1;
  }

  lemma RecomposeQuery(s: string)
    ensures BeforeQuery(s) + QueryText(Parse(s)) == SplitAt(s, '#').0
  {
  }

  lemma RecomposeFragment(s: string)
    ensures SplitAt(s, '#').0 + FragmentText(Parse(s)) == s
  {
  }

  /** Recomposing the parsed components gives back the original string. */
  lemma RecomposeParse(s: string)
    ensures Recompose(Parse(s)) == s
  {
    RecomposeHier(s);
    RecomposeQuery(s);
    RecomposeFragment(s);
  }

  /** A scheme contains none of the delimiters that end the other components. */
  lemma SchemeHasNoDelimiter(scheme: string)
    requires ValidScheme(scheme)
    ensures '?' !in scheme && '#' !in scheme && '/' !in scheme && ':' !in scheme
  {
    forall i | 0 <= i < |scheme|
      ensures scheme[i] !in {'?', '#', '/', ':'}
    {
      assert IsSchemeChar(scheme[i]);
    }
  }

  /** The hier-part of well-formed components splits back into them. */
  lemma SplitAuthorityOf(u: Uri)
    requires WellFormed(u)
    ensures SplitAuthority(HierText(u)) == (u.authority, u.path)
  {
    var hier := HierText(u);
    if u.authority.Some? {
      var a := u.authority.value;
      assert hier[..2] == "//";
      assert hier[2..] == a + u.path;
      if u.path == "" {
        SplitAtJoined(a, '/', None);
      } else {
        assert a + u.path == a + ([u.path[0]] + u.path[1..]);
        SplitAtJoined(a, '/', Some(u.path[1..]));
        assert "/" + u.path[1..] == u.path;
      }
    } else {
      assert hier == u.path;
    }
  }

  /** A scheme followed by ':' is split off again. */
  lemma SplitSchemeOf(scheme: string, hier: string)
    requires ValidScheme(scheme)
    ensures SplitScheme(scheme + ":" + hier) == (Some(scheme), hier)
  {
    var s := scheme + ":" + hier;
    SchemeRunOf(scheme, hier);
    assert s[0] == scheme[0];
    assert s[|scheme|] == ':';
    assert s[..|scheme|] == scheme;
    assert s[|scheme| + 1..] == hier;
  }

  /** Parsing the recomposition of well-formed components gives them back. */
  lemma ParseRecompose(u: Uri)
    requires WellFormed(u)
    ensures Parse(Recompose(u)) == u
  {
    var hier := HierText(u);
    var beforeQuery := SchemeText(u) + hier;
    var beforeFragment := beforeQuery + QueryText(u);
    assert Recompose(u) == beforeFragment + FragmentText(u);
    SchemeHasNoDelimiter(u.scheme.value);
    assert '#' !in beforeFragment;
    SplitAtJoined(beforeFragment, '#', u.fragment);
    assert '?' !in beforeQuery;
    SplitAtJoined(beforeQuery, '?', u.query);
    SplitSchemeOf(u.scheme.value, hier);
    SplitAuthorityOf(u);
  }

  // ---------------------------------------------------------------------------
  // Resolution

  /** The path up to and including its last '/', or "" when it has none. */
  function DirPrefix(path: string): (r: string)
    ensures |r| <= |path| && r == path[..|r|]
    ensures r == "" || r[|r| - 1] == '/'
    ensures '/' !in path[|r|..]
  {
    if |path| == 0 then ""
    else if path[|path| - 1] == '/' then path
    else
      var r := DirPrefix(path[..|path| - 1]);
      assert path[|r|..] == path[..|path| - 1][|r|..] + [path[|path| - 1]];
      r
  }

  /** Section 5.2.3 of RFC 3986. */
  function Merge(base: Uri, refPath: string): string {
    if base.authority.Some? && base.path == "" then "/" + refPath
    else DirPrefix(base.path) + refPath
  }

  /** Section 5.2.2 of RFC 3986 without dot-segment removal, in its non-strict
      form: a reference whose scheme equals the base's is treated as having
      none, as Python's `urljoin` does for schemes that allow relative
      references. */
  function Resolve(base: Uri, ref: Uri): Uri {
    if ref.scheme.Some? && ref.scheme != base.scheme then ref
    else if ref.authority.Some? then
      Uri(base.scheme, ref.authority, ref.path, ref.query, ref.fragment)
    else if ref.path == "" then
      Uri(base.scheme, base.authority, base.path,
          if ref.query.Some? then ref.query else base.query, ref.fragment)
    else if ref.path[0] == '/' then
      Uri(base.scheme, base.authority, ref.path, ref.query, ref.fragment)
    else
      Uri(base.scheme, base.authority, Merge(base, ref.path), ref.query, ref.fragment)
  }

  /** Python's `urljoin(base, url)`: an empty side yields the other unchanged;
      otherwise the reference is resolved against the base. */
  function Join(base: string, url: string): (r: string)
    ensures r == "" <==> base == "" && url == ""
  {
    if base == "" then url
    else if url == "" then base
    else
      JoinNonEmpty(Parse(base), url);
      Recompose(Resolve(Parse(base), Parse(url)))
  }

  /** A URL recomposes to the empty string exactly when it has no component. */
  predicate IsEmpty(u: Uri) {
    u.scheme.None? && u.authority.None? && u.path == "" && u.query.None? && u.fragment.None?
  }

  lemma RecomposeEmpty(u: Uri)
    ensures Recompose(u) == "" <==> IsEmpty(u)
  {
  }

  /** Resolving a non-empty reference never recomposes to the empty string:
      every component the reference brings, or the base scheme it adopts,
      leaves text behind. */
  lemma JoinNonEmpty(base: Uri, url: string)
    requires url != ""
    ensures Recompose(Resolve(base, Parse(url))) != ""
  {
    var ref := Parse(url);
    assert !IsEmpty(ref) by {
      RecomposeParse(url);
      RecomposeEmpty(ref);
    }
    ResolveNonEmpty(base, ref);
    RecomposeEmpty(Resolve(base, ref));
  }

  lemma ResolveNonEmpty(base: Uri, ref: Uri)
    requires !IsEmpty(ref)
    ensures !IsEmpty(Resolve(base, ref))
  {
  }

  // ---------------------------------------------------------------------------
  // Properties

  /** A URL with both a scheme and an authority, `scheme://authority...`. */
  predicate IsAbsolute(s: string) {
    Parse(s).scheme.Some? && Parse(s).authority.Some?
  }

  lemma ParseWellFormed(s: string)
    requires Parse(s).scheme.Some?
    ensures WellFormed(Parse(s))
  {
  }

  /** An absolute reference comes back unchanged. */
  lemma JoinAbsolute(base: string, url: string)
    requires IsAbsolute(url)
    ensures Join(base, url) == url
  {
    RecomposeParse(url);
    RecomposeParse(base);
  }

  /** Against a base with scheme and authority, resolution always produces a
      well-formed URL that keeps its authority unless its scheme differs from
      the base's. */
  lemma ResolveAgainstAbsolute(base: Uri, ref: Uri)
    requires WellFormed(base) && base.authority.Some?
    requires ref.scheme.Some? ==> WellFormed(ref)
    requires ref.scheme.None? ==> ref.authority.Some? ==> ref.path == "" || ref.path[0] == '/'
    requires ref.scheme.None? ==> ref.authority.None? ==> !(|ref.path| >= 2 && ref.path[..2] == "//")
    requires ref.authority.Some? ==> '/' !in ref.authority.value && '?' !in ref.authority.value && '#' !in ref.authority.value
    requires '?' !in ref.path && '#' !in ref.path
    requires ref.query.Some? ==> '#' !in ref.query.value
    ensures var t := Resolve(base, ref);
      WellFormed(t) && (t.scheme == base.scheme ==> t.authority.Some?)
  {
    var t := Resolve(base, ref);
    if !(ref.scheme.Some? && ref.scheme != base.scheme) && ref.authority.None? && ref.path != "" && ref.path[0] != '/' {
      var m := Merge(base, ref.path);
      if !(base.path == "") {
        var d := DirPrefix(base.path);
        assert d == base.path[..|d|];
        assert '?' !in d && '#' !in d;
        assert |d| > 0 by { assert base.path[0] == '/'; assert '/' !in base.path[|d|..]; }
        assert m[0] == '/';
      }
    }
  }

  /** Joining an already joined URL against the same absolute base is a
      no-op: the second `urljoin` applied to a page link changes nothing. */
  lemma JoinIdempotent(base: string, url: string)
    requires IsAbsolute(base)
    ensures Join(base, Join(base, url)) == Join(base, url)
  {
    if url == "" {
      JoinAbsolute(base, base);
    } else {
      var b := Parse(base);
      var r := Parse(url);
      var t := Resolve(b, r);
      assert WellFormed(t) && (t.scheme == b.scheme ==> t.authority.Some?) by {
        ParseWellFormed(base);
        if r.scheme.Some? {
          ParseWellFormed(url);
        }
        ResolveAgainstAbsolute(b, r);
      }
      var j := Recompose(t);
      assert j == Join(base, url);
      assert j != "" by { assert |t.scheme.value| > 0; }
      ParseRecompose(t);
      assert Resolve(b, t) == t;
    }
  }

  /** A query-only reference parses to that query alone. */
  lemma ParseQueryOnly(query: string)
    requires '#' !in query
    ensures Parse("?" + query) == Uri(None, None, "", Some(query), None)
  {
    SplitAtJoined("?" + query, '#', None);
    SplitAtJoined("", '?', Some(query));
    assert SplitScheme("") == (None, "");
  }

  /** A reference consisting of a query alone replaces the base's query and
      drops its fragment. */
  lemma JoinQuery(base: string, query: string)
    requires '#' !in query
    ensures Join(base, "?" + query) == SchemeText(Parse(base)) + HierText(Parse(base)) + "?" + query
  {
    if base == "" {
      JoinQueryEmptyBase(query);
    } else {
      ParseQueryOnly(query);
      var b := Parse(base);
      var t := Uri(b.scheme, b.authority, b.path, Some(query), None);
      assert Resolve(b, Parse("?" + query)) == t;
      assert Join(base, "?" + query) == Recompose(t);
    }
  }

  /** The URL a query-only reference joins to parses back with exactly that
      query and no fragment. */
  lemma ParseJoinQuery(base: string, query: string)
    requires '#' !in query
    ensures Parse(Join(base, "?" + query)).query == Some(query)
    ensures Parse(Join(base, "?" + query)).fragment.None?
  {
    JoinQuery(base, query);
    RecomposeHier(base);
    var bq := BeforeQuery(base);
    BeforeQueryHasNoDelimiter(base);
    var s := bq + "?" + query;
    assert s == bq + ['?'] + query;
    SplitAtJoined(s, '#', None);
    SplitAtJoined(bq, '?', Some(query));
  }

  lemma BeforeQueryHasNoDelimiter(s: string)
    ensures '#' !in BeforeQuery(s) && '?' !in BeforeQuery(s)
  {
  }

  lemma JoinQueryEmptyBase(query: string)
    ensures Join("", "?" + query) == SchemeText(Parse("")) + HierText(Parse("")) + "?" + query
  {
    RecomposeHier("");
    assert BeforeQuery("") == "";
  }
}

=== FILE: vacancy.dfy ===
/**
 The `Vacancy` record: a capitalised title, the two descriptions as given,
 the URL resolved against the configured base URL, the embedded
 `PositionDetails`, and the parse timestamp.
 */
module Vacancies {
  import opened Outcomes
  import opened Text
  import opened Urls
  import opened Details

  /** A point in time as `datetime.now()` reports it; the clock itself is not
      part of the model. */
  datatype Timestamp = Timestamp(microseconds: int)

  datatype Vacancy = Vacancy(
    title: string,
    briefDescription: string,
    fullDescription: string,
    url: string,
    positionDetails: PositionDetails,
    dateParsed: Timestamp)

  /** The pydantic constructor. `classDefault` is the one `datetime.now()`
      value computed when the class was defined; it is used whenever no
      `dateParsed` is supplied. */
  function NewVacancy(
    baseUrl: string, classDefault: Timestamp,
    title: string, briefDescription: string, fullDescription: string,
    url: string, positionDetails: PositionDetails, dateParsed: Option<Timestamp>): (r: Vacancy)
    ensures IsCapitalized(r.title) && SameIgnoringCase(r.title, title)
    ensures r.briefDescription == briefDescription
    ensures r.fullDescription == fullDescription
    ensures r.positionDetails == positionDetails
    ensures IsAbsolute(url) ==> r.url == url
    ensures dateParsed.None? ==> r.dateParsed == classDefault
    ensures dateParsed.Some? ==> r.dateParsed == dateParsed.value
  {
    assert IsAbsolute(url) ==> Join(baseUrl, url) == url by {
      if IsAbsolute(url) { JoinAbsolute(baseUrl, url); }
    }
    Vacancy(
      Capitalize(title), briefDescription, fullDescription, Join(baseUrl, url),
      positionDetails, if dateParsed.Some? then dateParsed.value else classDefault)
  }

  /** Validating a URL that was already joined against the same absolute
      base leaves it as it was. */
  lemma UrlValidatorNoOp(baseUrl: string, classDefault: Timestamp,
    title: string, briefDescription: string, fullDescription: string,
    href: string, positionDetails: PositionDetails)
    requires IsAbsolute(baseUrl)
    ensures NewVacancy(baseUrl, classDefault, title, briefDescription, fullDescription,
      Join(baseUrl, href), positionDetails, None).url == Join(baseUrl, href)
  {
    JoinIdempotent(baseUrl, href);
  }

  /** Re-capitalising a constructed vacancy's title changes nothing. */
  lemma TitleIdempotent(v: Vacancy, baseUrl: string, classDefault: Timestamp)
    requires IsCapitalized(v.title)
    ensures NewVacancy(baseUrl, classDefault, v.title, v.briefDescription, v.fullDescription,
      v.url, v.positionDetails, Some(v.dateParsed)).title == v.title
  {
    CapitalizeCharacterised(v.title, v.title);
  }
}
